=== FILE: README.md ===
# animation-demo: a Dafny model of the animation core

This project models the animation library of animation-demo, a C# WPF
application that plays animated GIFs. The library has four parts, and each
has a module here:

- **The GIF decoder** (`GifDecoding`, gif_decoding.dfy). It turns the raw
  frames of a GIF into a key-frame animation. Each raw frame is composited over
  a "base frame", which the frame's disposal method carries forward. Each key
  frame gets the delay of the raw frame before it.
- **Key frames** (`KeyFrames`, keyframes.dfy). These are the key-frame
  animation objects, their deep copy, and the in-place change from relative to
  absolute delays.
- **The frame cursor** (`FrameCursor`, frame_cursor.dfy). A `FrameAnimation`
  walks over a key-frame animation: UpdateFrame, the CurrentFrameIndex setter,
  NextFrame and PrevFrame. The pure functions `Update`, `SetIndex`, `Next` and
  `Prev` give the cursor's observable state after each call, and the methods of
  the class are proved against them.
- **The two frame controllers.** Both share the running states in
  `FrameControl` (frame_control.dfy).
  - `TimingControl` (timing_control.dfy): the render-loop controller. On every
    render tick it looks up, by binary search over absolute delays, the key
    frame that each cursor should show. The search as written can miss it
    (see the first finding).
  - `ThreadingControl` (threading_control.dfy): the worker-thread controller.
    It keeps a schedule of frames and, each cycle, does these steps:
    1. dispatches the due frames to their handlers;
    2. advances the cursors of the dispatched frames;
    3. unlinks the frames of cursors that have finished;
    4. sleeps for the smallest remaining delay and takes it off every delay.

    The worker advances a played frame with the step as written, which
    raises a null-reference error on a cursor that stands on its last key
    frame without a current key frame (see the findings). The pass and the
    cycle take the step as a parameter (`StepRule`), so every property of
    them is proved for the step as written and for the corrected step. The
    two agree while every cursor's last key frame is current whenever the
    cursor stands on it (`CycleAgrees`).

How the model represents things:

- Time is an integer number of milliseconds. Every clock reading is a
  parameter (`now`, or the time slept).
- Images are symbolic terms: `Raw(k)`, `Compose`, `Cleared`.
- An exception is returned as an `Option<Fault>`.
- Objects that the source updates in place are classes: `KeyFrame`,
  `KeyFramesAnimation`, `FrameAnimation` and both controllers.
- Records that never escape their controller are datatypes: the registrations,
  and the schedule entries of the threading controller.
- The getters `FrameAnimation.FrameCount` and `FrameAnimation.Duration`
  (Animation/FrameAnimation.cs:50, :20) are plain functions.
- So are `IsFullFrame` and `ClearArea` (Animation/GifDecoder.cs:85-91,
  :130-157) and the threading controller's `CurrentTime`
  (Animation/ThreadingFrameController.cs:27-29).

Two behaviours of the code are worth stating plainly, because the model
keeps them:

- **Full frames are composited too.** The disposal switch makes every frame
  with disposal `None` or `DoNotDispose` the base of the next frame
  (Animation/GifDecoder.cs:185-190). So when every frame covers the screen
  with disposal `None`, only the first key frame is the raw frame, and every
  later one is composited over the frame before it
  (`GifDecoding.FullKeepFramesAccumulate`). The key frames are the raw frames
  only when each one restores the background
  (`GifDecoding.FullRestoreBackgroundPassesThrough`).
- **A failing call can change state.** NextFrame and PrevFrame change the
  index before UpdateFrame can raise (Animation/FrameAnimation.cs:64-85), and
  the model keeps that change (`FrameCursor.Next`, `FrameCursor.Prev`).

## Model

| member | source | states |
|---|---|---|
| KeyFrames.KeyFrame.constructor | Animation/KeyFramesAnimation.cs:11-15 | A key frame holds the image and the delay it was built with. |
| KeyFrames.KeyFrame.Clone | Animation/KeyFramesAnimation.cs:17-20 | The copy is a new object holding the same image and delay. |
| KeyFrames.KeyFramesAnimation.constructor | Animation/KeyFramesAnimation.cs:25-28 | An animation holds the key frames, duration and size it was built with. |
| KeyFrames.KeyFramesAnimation.Clone | Animation/KeyFramesAnimation.cs:30-45 | A deep copy: a new animation whose key frames are new, pairwise distinct objects, as many as the original's, with the same images and delays in order, and the same duration and size. |
| KeyFrames.KeyFramesAnimation.MakeAbsoluteTimingKeyFrame | Animation/KeyFramesAnimation.cs:47-55 | Afterwards, the delay of key frame i is the sum of the old delays of key frames 0..i, which is the prefix sum of the relative delays. |
| KeyFrames.DifferencesOfPrefixSums | Animation/KeyFramesAnimation.cs:47-55 | Round trip: taking the differences of the absolute delays gives back the relative delays. |
| KeyFrames.PrefixSumsOfDifferences | Animation/KeyFramesAnimation.cs:47-55 | The other direction: every absolute timeline is the prefix sum of its own differences. |
| KeyFrames.PrefixSumsMonotone | Animation/KeyFramesAnimation.cs:47-55 | Non-negative relative delays give a non-decreasing absolute timeline, which is what the binary search of the render-loop controller needs. |
| FrameCursor.Update | Animation/FrameAnimation.cs:58-62 | UpdateFrame succeeds exactly when the cursor has a source and its index lies in [0, FrameCount). The key frame at the index then becomes current. Otherwise it raises a null-reference or out-of-range error and changes nothing. |
| FrameCursor.SetIndex | Animation/FrameAnimation.cs:21-34 | The setter succeeds exactly when the new index is in range. It then stores the index and makes that key frame current. An out-of-range index raises an error naming the index and the bound, and changes nothing. |
| FrameCursor.NextInside | Animation/FrameAnimation.cs:64-73 | Before the last key frame, NextFrame moves one key frame on and shows it. |
| FrameCursor.NextWraps | Animation/FrameAnimation.cs:64-73 | On or past the last key frame, a looping cursor goes back to key frame 0 and shows it. On an animation without key frames it fails. |
| FrameCursor.NextStops | Animation/FrameAnimation.cs:64-73 | On or past the last key frame, a non-looping cursor only counts its index up and shows nothing new. |
| FrameCursor.NextTimesPastEnd | Animation/FrameAnimation.cs:64-73 | After n more NextFrame calls, a finished non-looping cursor has index + n and the same current frame. |
| FrameCursor.PrevInside | Animation/FrameAnimation.cs:75-85 | Above index 1, PrevFrame moves one key frame back and shows it. |
| FrameCursor.PrevWraps | Animation/FrameAnimation.cs:75-85 | From index 1 or below, a looping cursor jumps to the last key frame, so stepping back from 1 skips key frame 0. |
| FrameCursor.PrevStops | Animation/FrameAnimation.cs:75-85 | From index 1 or below, a non-looping cursor only counts its index down and shows nothing new, even when it lands on 0. |
| FrameCursor.FrameAnimation.constructor | Animation/FrameAnimation.cs:52-56 | A new cursor is at index 0, does not loop, and has no current frame. |
| FrameCursor.FrameAnimation.UpdateFrame | Animation/FrameAnimation.cs:58-62 | The new state and the error are those `Update` gives for the old state, and the stream shows the current key frame's image. |
| FrameCursor.FrameAnimation.SetCurrentFrameIndex | Animation/FrameAnimation.cs:21-34 | The new state and the error are those `SetIndex` gives for the old state. |
| FrameCursor.FrameAnimation.NextFrame | Animation/FrameAnimation.cs:64-73 | The new state and the error are those `Next` gives for the old state. |
| FrameCursor.FrameAnimation.PrevFrame | Animation/FrameAnimation.cs:75-85 | The new state and the error are those `Prev` gives for the old state. |
| GifDecoding.GetFullSize | Animation/GifDecoder.cs:57-62 | The screen size is the queried width and height, with 0 for an absent query. |
| GifDecoding.GetFrameMetadata | Animation/GifDecoder.cs:64-83 | The delay is ten times the stored hundredths, or 100 ms when the query is absent or 0, and never below 10 ms for a non-negative query. The placement defaults to the origin and to the frame's pixel size. The disposal is the queried code cast to the disposal enum, where codes outside 0-3 stay as unlisted values, and defaults to code 0. |
| GifDecoding.MakeFrame | Animation/GifDecoder.cs:93-128 | The raw frame is returned exactly when there is no base frame and the frame covers the screen. Otherwise the result is the base drawn over the screen with the raw frame on top at its placement. |
| GifDecoding.NextBase | Animation/GifDecoder.cs:185-204 | After codes 0 and 1, the frame becomes the next base. After code 2, there is no base if the frame covers the screen, and otherwise the frame with its area cleared. After code 3 or an unlisted code, the base stays. |
| GifDecoding.DecodeFrame | Animation/GifDecoder.cs:174-207 | One turn of the loop appends one new key frame that holds the composited image and the previous raw frame's delay. It also brings the base frame, the pending delay and the running total up to date. |
| GifDecoding.DecodeFrames | Animation/GifDecoder.cs:159-213 | Gives one new, distinct key frame per raw frame, in order. Key frame i holds composited image i and the delay of raw frame i-1 (0 for the first). Duration is the sum of all raw delays, and the size is the screen size. |
| GifDecoding.DurationExceedsKeyFrameDelays | Animation/GifDecoder.cs:171-183 | Because the delays run one frame behind, Duration is the sum of the key-frame delays plus the last raw frame's delay. |
| GifDecoding.FullRestoreBackgroundPassesThrough | Animation/GifDecoder.cs:174-207 | When every frame covers the screen and restores the background, no base is ever kept, and each key frame is its raw frame. |
| GifDecoding.FullKeepFramesAccumulate | Animation/GifDecoder.cs:185-190 | When every frame covers the screen with disposal 0 or 1, only the first key frame is raw. Every later key frame is composited over the previous one. |
| GifDecoding.RestorePreviousKeepsBase | Animation/GifDecoder.cs:201-203 | A run of code-3 (or unlisted) frames leaves the base from before the run in place. |
| TimingControl.KeyFrameAtUnique | Animation/TimingFrameController.cs:47-54 | At most one key frame is the one to show at a given time. |
| TimingControl.SearchAsWritten | Animation/TimingFrameController.cs:55-72 | The loop as written returns a position in [first, \|d\|], and every key frame before it has started. |
| TimingControl.UpperBound | Animation/TimingFrameController.cs:55-72 | The method computes SearchAsWritten. Its result lies in [first, last], and the key frame before it has started. |
| TimingControl.FindKeyFrame | Animation/TimingFrameController.cs:74-77 | The result lies in [-1, \|timeline\|), and the key frame it names, if any, has started. |
| TimingControl.FindKeyFrameSkipsKeyFrames | Animation/TimingFrameController.cs:67 | On the timeline [0, 100, 250] at 50 ms the search as written answers -1, though key frame 0 is the one to show. On [0, 100, 250, 400] at 120 ms it answers 0 instead of 1. The corrected search gets both right. |
| TimingControl.SearchFixed | Animation/TimingFrameController.cs:55-72 | The corrected loop returns r in [first, last], where the key frame before r has started and the key frame at r has not. |
| TimingControl.SearchFixedSplits | Animation/TimingFrameController.cs:55-72 | On a sorted timeline, the corrected search splits [first, last) into the key frames that have started and those that have not. |
| TimingControl.UpperBoundFixed | Animation/TimingFrameController.cs:55-72 | Computes SearchFixed. On a sorted timeline its result is the first key frame that has not started. |
| TimingControl.FindKeyFrameFixed | Animation/TimingFrameController.cs:74-77 | On a sorted timeline, the result is exactly the key frame to show. |
| TimingControl.SearchFixedFindsKeyFrame | Animation/TimingFrameController.cs:74-77 | In both directions, on the absolute timeline of non-negative relative delays: k is the key frame to show if and only if the corrected search answers k. |
| TimingControl.TruncRem | Animation/TimingFrameController.cs:97-98 | Taking whole periods off toward zero, with truncating division, leaves a remainder of magnitude below the period and with the sign of the input. |
| TimingControl.TimeInAnimation | Animation/TimingFrameController.cs:97-98 | The time looked up within the animation: whole lengths are taken off toward zero, leaving less than one length with the sign of the elapsed time; a negative length counts by its magnitude, and a length of 0 leaves the elapsed time as it is. |
| TimingControl.TickIndex | Animation/TimingFrameController.cs:93-100 | The key frame the tick selects with the search as written is in [-1, \|d\|) and has started, if any. A non-looping cursor selects nothing once the animation is over. |
| TimingControl.TickIndexFixed | Animation/TimingFrameController.cs:93-100 | With the corrected search, the selected key frame has started and the next one has not, and a non-looping cursor past its end selects nothing. |
| TimingControl.TickIndexFixedFindsKeyFrame | Animation/TimingFrameController.cs:93-100 | In both directions, on the absolute timeline of non-negative delays while the animation runs or loops: the corrected tick selects k if and only if k is the key frame that started last. |
| TimingControl.TickLagsBehindFixed | Animation/TimingFrameController.cs:93-100 | On a sorted timeline the tick as written never selects a key frame later than the corrected tick does. |
| TimingControl.TickShowsStartedKeyFrame | Animation/TimingFrameController.cs:93-107 | A tick that moves a cursor moves it to a key frame that has started, no later than the one that started last, makes that key frame current, and raises nothing. |
| TimingControl.MovesIffAdvances | Animation/TimingFrameController.cs:101-107 | A tick changes a cursor exactly when it selects a key frame other than the cursor's index. |
| TimingControl.TickTimeline | Animation/TimingFrameController.cs:93-100 | On [0, 100, 250] of length 300, the tick as written selects key frames 1 and 2 at 150 and 260 ms, but nothing at 50 ms, or at 310 ms when looping, where the corrected tick selects key frame 0. A non-looping cursor selects nothing at 310 ms. A looping animation of length 0 looks up the elapsed time itself. |
| TimingControl.TickAnimation | Animation/TimingFrameController.cs:91-108 | One turn of the tick loop, with FindKeyFrame as written, moves the cursor as TickCursor says. It reports a move exactly when the cursor's state changed, which is when the handler is fed. A cursor of any length is handled. |
| TimingControl.Visit | Animation/TimingFrameController.cs:89-110 | One visit ticks one more cursor, and the loop state is kept. |
| TimingControl.TickAll | Animation/TimingFrameController.cs:89-110 | Every registered cursor ticks once, with the search as written, against the controller time minus its registration time. The cursors whose state changed are exactly the ones notified. |
| TimingControl.AbsoluteCopy | Animation/TimingFrameController.cs:118-119 | The registered copy is new, has the source's images, and has the prefix sums of the source's delays as its delays. |
| TimingControl.TimingFrameController.constructor | Animation/TimingFrameController.cs:18-22 | A new controller is stopped, has no registrations, has its clock fields at their initial values, and has no paused time. |
| TimingControl.TimingFrameController.CurrentTime | Animation/TimingFrameController.cs:24-45 | As written: the stop time less the start and paused time when stopped, and the time since start less the paused time when playing. When paused or starting it is 0, because the third test repeats Play. |
| TimingControl.TimingFrameController.CurrentTimeFixed | Animation/TimingFrameController.cs:24-45 | Corrected: agrees with CurrentTime except in Pause, where it is the time at which the controller paused, less the start and paused time. |
| TimingControl.TimingFrameController.PausedCurrentTimeIsZero | Animation/TimingFrameController.cs:36-43 | A paused controller reports 0 as written, and the time of pausing once corrected. |
| TimingControl.PauseThenRegister | Animation/TimingFrameController.cs:36-43 | Start and Play at 0 ms, Pause at 1000 ms, register at 1500 ms: CurrentTime reports 0 and the registration's start time is 0, where the corrected time is 1000. |
| TimingControl.TimingFrameController.Tick | Animation/TimingFrameController.cs:79-112 | In Play, every registered cursor ticks, with the search as written, against the controller time, and exactly the changed cursors are notified. In any other state nothing changes. |
| TimingControl.TimingFrameController.AddAnimation | Animation/TimingFrameController.cs:116-123 | The cursor is registered (again, if already registered) with the absolute delays of a deep copy of its source, its handler, and the current time as CurrentTime gives it, which is 0 while paused. The source's delays are untouched, and a cursor without a source raises a null-reference error. |
| TimingControl.TimingFrameController.Clear | Animation/TimingFrameController.cs:125-128 | No registration is left, and nothing else changes. |
| TimingControl.TimingFrameController.RemoveAnimation | Animation/TimingFrameController.cs:155-158 | Exactly the cursor's registration goes. |
| TimingControl.TimingFrameController.DoPause | Animation/TimingFrameController.cs:177-181 | The controller pauses at `now`. |
| TimingControl.TimingFrameController.Start | Animation/TimingFrameController.cs:160-168 | The clock restarts at `now` with no paused time, and the controller waits paused at time 0. |
| TimingControl.TimingFrameController.Play | Animation/TimingFrameController.cs:130-141 | Play raises NotStarted when stopped. From Pause or Start it plays and adds the pause to the paused time, so a paused controller's time goes on from where it stopped. |
| TimingControl.TimingFrameController.Pause | Animation/TimingFrameController.cs:143-153 | Pause raises NotStarted when stopped. From Play it pauses at `now`, freezing the controller time. Otherwise nothing changes. |
| TimingControl.TimingFrameController.Stop | Animation/TimingFrameController.cs:170-175 | Stop records the stop time and stops. A playing controller's time freezes. |
| ThreadingControl.MarkDue | Animation/ThreadingFrameController.cs:57-72 | Exactly the due frames (delay of 0 or less) become played. Registrations and delays stay as they were. |
| ThreadingControl.DispatchesAreDueFrames | Animation/ThreadingFrameController.cs:57-72 | A handler is called with a cursor's stream if and only if a due frame of the schedule registers that cursor with that handler. |
| ThreadingControl.OnFramesChange | Animation/ThreadingFrameController.cs:55-73 | The loop marks the schedule as MarkDue says and makes the handler calls Dispatches lists, in schedule order. |
| ThreadingControl.AdvanceFrame | Animation/ThreadingFrameController.cs:113-127 | The step as written keeps the cursor consistent with its source and keeps its loop flag and the frame's registration. A frame that was not played is left alone. |
| ThreadingControl.AdvanceFrameFixed | Animation/ThreadingFrameController.cs:113-127 | The corrected step keeps the same properties as the step as written. |
| ThreadingControl.AdvanceFrameFixedMovesOn | Animation/ThreadingFrameController.cs:113-127 | A played frame whose cursor is inside the animation advances without error as NextFrame says. It waits for the delay of the last key frame (when it stood on it) or for the delay of the key frame now shown. |
| ThreadingControl.AdvanceFrameFixedAgrees | Animation/ThreadingFrameController.cs:116-120 | The two steps agree except on a played frame whose cursor stands on its last key frame without that key frame being current. When no key frame is current, only the step as written fails. |
| ThreadingControl.Advance | Animation/ThreadingFrameController.cs:113-127 | Whichever step the pass uses, as written or corrected, keeps the cursor consistent with its source, keeps its loop flag and the frame's registration, and leaves a frame that was not played alone. |
| ThreadingControl.SyncedStep | Animation/ThreadingFrameController.cs:116-120 | On a cursor whose last key frame is current whenever it stands on it, the two steps agree, and a step without error leaves the cursor in that state. |
| ThreadingControl.AdvanceAllCursors | Animation/ThreadingFrameController.cs:107-140 | With either step, the pass advances only the cursors it was given, keeps their loop flags, and keeps them consistent with their sources. |
| ThreadingControl.AdvanceAllKeepsOrder | Animation/ThreadingFrameController.cs:107-140 | With either step, what the pass keeps is the schedule with some frames left out, in the same order. |
| ThreadingControl.AdvanceAllKeepsLooping | Animation/ThreadingFrameController.cs:129-139 | A pass without error, with either step, drops no frame of a looping cursor. |
| ThreadingControl.AdvanceAllLeavesOthers | Animation/ThreadingFrameController.cs:107-140 | With either step, a cursor the schedule does not mention keeps its state and is not scheduled afterwards. |
| ThreadingControl.LastKeyFrameLeaves | Animation/ThreadingFrameController.cs:114-135 | A played, non-looping cursor on its last key frame is no longer scheduled after a pass without error, with either step. |
| ThreadingControl.StepCursor | Animation/ThreadingFrameController.cs:113-127 | The cursor moves, and the frame takes its delay, exactly as the step as written (AdvanceFrame) says. On the last key frame the delay of the current key frame is read before NextFrame, and a cursor with no current key frame raises a null-reference error. |
| ThreadingControl.AdvanceStep | Animation/ThreadingFrameController.cs:107-140 | One turn of the walk keeps the pass invariant: the frames done so far, followed by the pass over the rest, give the pass over the whole schedule. An error gives the pass's outcome at once. |
| ThreadingControl.AdvanceFrames | Animation/ThreadingFrameController.cs:107-140 | The walk's schedule, cursor states and error are exactly those of AdvanceAll with the step as written, on the schedule it was given. |
| ThreadingControl.MinDelay | Animation/ThreadingFrameController.cs:143-150 | The result is none exactly for an empty schedule. Otherwise it is a delay of the schedule that no delay is below. |
| ThreadingControl.FindMinDelay | Animation/ThreadingFrameController.cs:143-150 | The loop computes MinDelay. |
| ThreadingControl.Shift | Animation/ThreadingFrameController.cs:164-167 | Every delay is reduced by t, and registrations and played flags stay as they were. |
| ThreadingControl.ShiftKeepsGaps | Animation/ThreadingFrameController.cs:164-167 | Shifting keeps the gaps between due times. |
| ThreadingControl.ShiftByMinSettles | Animation/ThreadingFrameController.cs:143-167 | Shifting by the smallest delay leaves every delay at 0 or more and one at 0. |
| ThreadingControl.ReduceDelays | Animation/ThreadingFrameController.cs:164-167 | The loop computes Shift. |
| ThreadingControl.Cycle | Animation/ThreadingFrameController.cs:102-168 | The handler calls of a cycle, with either step, are those Dispatches lists for the schedule. |
| ThreadingControl.CycleSettles | Animation/ThreadingFrameController.cs:142-167 | After a cycle without error, with either step, no delay is negative and one is 0, so the next frame is due when the sleep ends. An empty schedule sleeps 0. |
| ThreadingControl.CycleKeepsOrderAndLooping | Animation/ThreadingFrameController.cs:102-168 | A cycle with either step keeps the schedule's order. One without error keeps every registration of a looping cursor. |
| ThreadingControl.CycleKeepsRegistrations | Animation/ThreadingFrameController.cs:107-140 | With either step, every frame a cycle keeps belongs to a registration it was given, and the cycle advances exactly the cursors it was given. |
| ThreadingControl.LastKeyFrameShownOnce | Animation/ThreadingFrameController.cs:102-168 | With either step, a due, non-looping cursor on its last key frame is dispatched, then leaves the schedule unless the cycle fails. Its last key frame is shown once. |
| ThreadingControl.NewFrameIsDispatched | Animation/ThreadingFrameController.cs:214-216 | A newly scheduled frame (delay 0) is dispatched by the next cycle. |
| ThreadingControl.SingleKeyFrameFaults | Animation/ThreadingFrameController.cs:102-127 | For a fresh single-key-frame animation, the worker's cycle dispatches the frame, then raises a null-reference error, leaving the frame played and the cursor unchanged. The corrected cycle dispatches it, keeps it only when it loops, and sleeps for its delay. |
| ThreadingControl.AdvanceAllAgrees | Animation/ThreadingFrameController.cs:107-140 | While every cursor's last key frame is current whenever the cursor stands on it, the pass with the step as written is the pass with the corrected step. |
| ThreadingControl.CycleAgrees | Animation/ThreadingFrameController.cs:102-168 | Under the same condition, the worker's cycle is the corrected cycle. |
| ThreadingControl.NodesWithoutRemovesExactly | Animation/ThreadingFrameController.cs:225 | Unregistering removes exactly the registrations of the cursor. |
| ThreadingControl.NodesWithoutKeepsOrder | Animation/ThreadingFrameController.cs:225 | The remaining registrations keep their order. |
| ThreadingControl.FramesWithoutRemovesExactly | Animation/ThreadingFrameController.cs:228-244 | Unscheduling removes exactly the frames of the cursor. |
| ThreadingControl.FramesWithoutKeepsOrder | Animation/ThreadingFrameController.cs:228-244 | The remaining frames keep their order. |
| ThreadingControl.Unschedule | Animation/ThreadingFrameController.cs:228-244 | The walk that unlinks the cursor's frames computes FramesWithout. |
| ThreadingControl.ThreadingFrameController.constructor | Animation/ThreadingFrameController.cs:46-47 | A new controller is stopped, has no worker, and has an empty schedule and no registrations. |
| ThreadingControl.ThreadingFrameController.BeginRun | Animation/ThreadingFrameController.cs:86-92 | A stopped controller ends the worker. Otherwise the clock starts at `now`, so the controller time is 0. |
| ThreadingControl.ThreadingFrameController.RunCycle | Animation/ThreadingFrameController.cs:102-168 | The new schedule, the cursors' new states, the handler calls, the sleep and the error are those Cycle gives, with the step as written, for the state before the cycle. The controller stays valid. |
| ThreadingControl.ThreadingFrameController.SleepInterrupted | Animation/ThreadingFrameController.cs:181-191 | The time slept is taken off every scheduled delay, and nothing else changes. |
| ThreadingControl.ThreadingFrameController.AddAnimation | Animation/ThreadingFrameController.cs:207-218 | A registration with the current time is appended. A cursor with key frames is also scheduled at the end, due at once. |
| ThreadingControl.ThreadingFrameController.RemoveAnimation | Animation/ThreadingFrameController.cs:220-246 | Every registration of the cursor and every frame scheduling it go. The rest keep their order. |
| ThreadingControl.ThreadingFrameController.Start | Animation/ThreadingFrameController.cs:248-260 | A controller with a worker is left alone. Otherwise the worker is created and the controller waits paused. |
| ThreadingControl.ThreadingFrameController.Play | Animation/ThreadingFrameController.cs:262-273 | Play raises NotStarted when stopped, and plays otherwise. |
| ThreadingControl.ThreadingFrameController.Pause | Animation/ThreadingFrameController.cs:275-286 | Pause raises NotStarted when stopped. From Play it pauses. In Pause or Start nothing changes. |
| ThreadingControl.ThreadingFrameController.Stop | Animation/ThreadingFrameController.cs:288-299 | Without a worker nothing happens. Otherwise the controller stops and the worker is gone. |
| ThreadingControl.ThreadingFrameController.Clear | Animation/ThreadingFrameController.cs:301-306 | Clear stops, then forgets every registration and the schedule. |

## Left out

- Threads, the lock, the wait handles and the worker's waits are not modelled. Each cycle of the worker is one atomic step, which is correct because the worker holds the lock for all of it. Interleaving with AddAnimation or RemoveAnimation is not modelled.
- The UI dispatcher is not modelled. The handlers' OnIncommingFrame calls are recorded as a sequence of `Dispatch` values, and what a handler does with the frame is not part of the model.
- Clock readings (`DateTime.Now`) are parameters, and time is whole milliseconds rather than `double`. The truncating `(int)` cast of the tick is modelled explicitly (`TimeInAnimation`). A quotient outside the range of `int`, whose cast C# leaves unspecified, is not modelled.
- WPF imaging is not modelled: the bitmap decoder, rendering, clipping and freezing. Images are symbolic terms, and the decoder's raw frames and metadata queries are inputs.
- DecodeFramesAysnc, the WPF demo application and the UI are not part of this model.
- The render-loop hookup (the `CompositionTarget.Rendering` event) is not modelled. `Tick` is the event handler.
- The Double.MaxValue sentinel of the minimum-delay search is modelled as `None`.
- `FrameCursor.Cursor` identifies the current key frame by its position in the source's key frames, which never change. The KeyFrame object itself is left implicit.
- A registration of the render-loop controller holds the absolute delays of its deep copy as a value. The copy's images are never read by the controller.
- KeyFrames.KeyFramesAnimation.MakeAbsoluteTimingKeyFrame requires that no KeyFrame object occurs twice in the array. With an aliased array the source adds a delay to itself, which the model does not cover. Every array the library builds is distinct (`Clone`, `DecodeFrames`).
- TimingControl.TimingFrameController.CurrentTime leaves out the source's third branch, which can never run.
- ThreadingControl.ThreadingFrameController.RunCycle returns an error as a value, with the schedule and cursors the pass left behind. In the source the error is an unhandled exception that ends the worker thread, and with it the process. Nothing after that is modelled.
- ThreadingControl.AdvanceFrames runs the pass over a local copy of the schedule, assigned back once (`Reschedule`). The source unlinks nodes of its linked list in place, which cannot be observed while the lock is held.
- The worker's final assignment of Stop (Animation/ThreadingFrameController.cs:196) is not modelled. The worker only gets there once the state is Stop.

## Findings

| source | as written | input that shows it | evidently intended | confidence | as-written member | corrected member |
|---|---|---|---|---|---|---|
| Animation/TimingFrameController.cs:67 | When the midpoint key frame has not started, the search sets `last = it - 1`, which drops the key frame just before the midpoint from the candidates. | Absolute delays [0, 100, 250] at 50 ms: FindKeyFrame answers -1, so the tick never shows key frame 0 (nor at 310 ms when looping, `TimingControl.TickTimeline`). [0, 100, 250, 400] at 120 ms answers 0 instead of 1. | `last = it`, so that UpperBound returns the first key frame that has not started. | not executed | TimingControl.FindKeyFrameSkipsKeyFrames | TimingControl.SearchFixedFindsKeyFrame |
| Animation/TimingFrameController.cs:36 | The third branch of CurrentTime tests Play again, so it never runs, and a paused controller reports 0. | Start at 0 ms, Play at 0 ms, Pause at 1000 ms: CurrentTime is 0, and AddAnimation at 1500 ms registers with start time 0 (TimingControl.PauseThenRegister). | Test Pause, and report the time at which the controller paused. | not executed | TimingControl.TimingFrameController.PausedCurrentTimeIsZero | TimingControl.TimingFrameController.CurrentTimeFixed |
| Animation/ThreadingFrameController.cs:118 | On its last key frame, a played frame reads the delay of `CurrentFrame`, which is null for a cursor that was never updated. | A GIF with one key frame: its frame is due at once, the cursor stands on index 0 = FrameCount - 1 with no current frame, and the worker raises a null-reference error. | Read the delay of the key frame at the cursor's index. | not executed | ThreadingControl.SingleKeyFrameFaults | ThreadingControl.AdvanceFrameFixedMovesOn |

=== FILE: common.dfy ===
/** Values shared by every part of the model: optional values and the runtime
    faults (exceptions) that the animation library can raise. */
module Common {

  datatype Option<T> = None | Some(value: T) {
    function GetOr(default: T): T {
      match this
      case Some(v) => v
      case None => default
    }
  }

  /** The exceptions the library raises or runs into.
      - IndexOutOfRange: an array index or a frame index outside [0, length).
      - NullReference: a member read through a null reference.
      - NotStarted: Play or Pause on a controller in the Stop state. */
  datatype Fault =
    | IndexOutOfRange(index: int, length: int)
    | NullReference
    | NotStarted
}

/** Images are symbolic: the model records how each displayed image was built
    from the raw frames of the stream, not its pixels. */
module Imaging {

  import opened Common

  /** A placement rectangle in canvas pixels. */
  datatype Rect = Rect(left: int, top: int, width: int, height: int)

  /** A canvas size in pixels. */
  datatype Size = Size(width: int, height: int)

  datatype Img =
    /** The k-th raw frame of the stream, as the frame decoder yields it. */
    | Raw(k: nat)
    /** A canvas of the given size: `base` (if any) drawn over the whole canvas,
        then `raw` drawn at `rect` on top of it. */
    | Compose(size: Size, base: Option<Img>, raw: Img, rect: Rect)
    /** `img` with the area `rect` cleared back to transparent. */
    | Cleared(img: Img, rect: Rect)

  /** The height of an image term; an image differs from every image built on it. */
  function Depth(i: Img): nat
  {
    match i
    case Raw(_) => 0
    case Compose(_, base, raw, _) =>
      1 + (if base.Some? && Depth(base.value) > Depth(raw) then Depth(base.value) else Depth(raw))
    case Cleared(img, _) => 1 + Depth(img)
  }
}

=== FILE: frame_control.dfy ===
/** What both controllers share (Animation/FrameController.cs): the running
    states and the frame consumer. */
module FrameControl {

  /** The running state of a controller. */
  datatype ControlEvent = Start | Play | Pause | Stop

  /** Every controller starts stopped. */
  const InitialState: ControlEvent := Stop

  /** DateTime.MinValue, in milliseconds: the clock fields before their first
      assignment. */
  const MinValue: int := 0

  /** A frame consumer. Only its identity matters here: what it does with a
      frame it receives is not part of the model. */
  class FrameHandler {
  }
}

=== FILE: frame_cursor.dfy ===
/** The per-playback cursor over a key-frame animation
    (Animation/FrameAnimation.cs).

    The cursor's observable state is given as a `Cursor` value; the pure
    functions SetIndex, Next and Prev say what the class's mutators do to it,
    including the exceptions they raise. The boundary behaviour is the
    source's, quirks included: a non-looping NextFrame runs the index past the
    end without touching the current frame, PrevFrame wraps as soon as the
    index reaches 0, and no frame is current until the first update. */
module FrameCursor {

  import opened Common
  import opened Imaging
  import opened KeyFrames

  /** The observable state of a FrameAnimation: the number of key frames of
      its source (None when it has no source), the frame index, which key
      frame of the source is the current one (None until the first update)
      and the loop flag. The source's key-frame array never changes, so a key
      frame is identified by its position in it. */
  datatype Cursor = Cursor(
    frameCount: Option<nat>,
    index: int,
    current: Option<nat>,
    loop: bool)

  /** The state after a call, and the exception the call raised, if any. */
  datatype Step = Step(cursor: Cursor, fault: Option<Fault>)

  function FrameCount(c: Cursor): nat
  {
    match c.frameCount
    case None => 0
    case Some(n) => n
  }

  /** UpdateFrame: make key frame `index` the current one. */
  function Update(c: Cursor): (r: Step)
    ensures r.fault.None? <==> c.frameCount.Some? && 0 <= c.index < FrameCount(c)
    ensures r.fault.None? ==> r.cursor == c.(current := Some(c.index as nat))
    ensures r.fault.Some? ==> r.cursor == c
  {
    match c.frameCount
    case None => Step(c, Some(NullReference))
    case Some(n) =>
      if 0 <= c.index < n then Step(c.(current := Some(c.index as nat)), None)
      else Step(c, Some(IndexOutOfRange(c.index, n)))
  }

  /** The CurrentFrameIndex setter. */
  function SetIndex(c: Cursor, index: int): (r: Step)
    ensures r.fault.None? <==> c.frameCount.Some? && 0 <= index < FrameCount(c)
    ensures r.fault.None? ==> r.cursor == c.(index := index, current := Some(index as nat))
    ensures r.fault.Some? ==> r.cursor == c
    ensures c.frameCount.None? ==> r.fault == Some(NullReference)
    ensures c.frameCount.Some? && !(0 <= index < FrameCount(c)) ==> r.fault == Some(IndexOutOfRange(index, FrameCount(c)))
  {
    match c.frameCount
    case None => Step(c, Some(NullReference))
    case Some(n) =>
      if index < 0 || index >= n then Step(c, Some(IndexOutOfRange(index, n)))
      else Update(c.(index := index))
  }

  /** NextFrame. */
  function Next(c: Cursor): Step
  {
    var c1 := c.(index := c.index + 1);
    match c.frameCount
    case None => Step(c1, Some(NullReference))
    case Some(n) =>
      if c1.index >= n then
        if !c.loop then Step(c1, None) else Update(c1.(index := 0))
      else Update(c1)
  }

  /** PrevFrame. */
  function Prev(c: Cursor): Step
  {
    var c1 := c.(index := c.index - 1);
    if c1.index <= 0 then
      if !c.loop then Step(c1, None) else Update(c1.(index := FrameCount(c) - 1))
    else Update(c1)
  }

  /** Inside the animation, NextFrame moves one key frame on and shows it. */
  lemma NextInside(c: Cursor)
    requires c.frameCount.Some? && -1 <= c.index < FrameCount(c) - 1
    ensures Next(c) == Step(c.(index := c.index + 1, current := Some(c.index + 1)), None)
  {
  }

  /** At or past the last key frame, a looping NextFrame goes back to key
      frame 0 and shows it; on an empty animation it fails. */
  lemma NextWraps(c: Cursor)
    requires c.frameCount.Some? && c.loop && c.index >= FrameCount(c) - 1
    ensures FrameCount(c) > 0 ==> Next(c) == Step(c.(index := 0, current := Some(0)), None)
    ensures FrameCount(c) == 0 ==> Next(c) == Step(c.(index := 0), Some(IndexOutOfRange(0, 0)))
  {
  }

  /** At or past the last key frame, a non-looping NextFrame only counts the
      index up: it stays at or beyond FrameCount and the current frame is
      left alone. */
  lemma NextStops(c: Cursor)
    requires c.frameCount.Some? && !c.loop && c.index >= FrameCount(c) - 1
    ensures Next(c) == Step(c.(index := c.index + 1), None)
    ensures Next(c).cursor.index >= FrameCount(c)
  {
  }

  /** The cursor after n calls of NextFrame (stopping at the first fault). */
  function NextTimes(c: Cursor, n: nat): Step
  {
    if n == 0 then Step(c, None)
    else
      var s := NextTimes(c, n - 1);
      if s.fault.Some? then s else Next(s.cursor)
  }

  /** Repeated NextFrame calls on a finished non-looping cursor keep
      incrementing the index and never show another frame. */
  lemma {:induction false} NextTimesPastEnd(c: Cursor, n: nat)
    requires c.frameCount.Some? && !c.loop && c.index >= FrameCount(c) - 1
    ensures NextTimes(c, n) == Step(c.(index := c.index + n), None)
  {
    if n > 0 {
      NextTimesPastEnd(c, n - 1);
      NextStops(c.(index := c.index + n - 1));
    }
  }

  /** Above index 1, PrevFrame moves one key frame back and shows it. */
  lemma PrevInside(c: Cursor)
    requires c.frameCount.Some? && 1 < c.index <= FrameCount(c)
    ensures Prev(c) == Step(c.(index := c.index - 1, current := Some(c.index - 1)), None)
  {
  }

  /** Reaching index 0 or below, a looping PrevFrame jumps to the last key
      frame; this includes the step from 1, so key frame 0 is skipped. */
  lemma PrevWraps(c: Cursor)
    requires c.frameCount.Some? && c.loop && c.index <= 1 && FrameCount(c) > 0
    ensures Prev(c) == Step(c.(index := FrameCount(c) - 1, current := Some(FrameCount(c) - 1)), None)
  {
  }

  /** Reaching index 0 or below, a non-looping PrevFrame decrements the index
      and shows nothing new, even when it lands on key frame 0. */
  lemma PrevStops(c: Cursor)
    requires !c.loop && c.index <= 1
    ensures Prev(c) == Step(c.(index := c.index - 1), None)
  {
  }

  class FrameAnimation {
    /** The decoded animation played by this cursor (the AnimationSource
        property; its setter is only used by the constructor). */
    const AnimationSource: KeyFramesAnimation?
    var currentFrameIndex: int
    var currentFrame: KeyFrame?
    /** The position in the source's key frames of the current key frame. */
    ghost var currentPosition: Option<nat>
    /** The current image of the cursor's frame stream. The stream object is
        owned by this cursor alone, so its one field is held here. */
    var streamFrame: Option<Img>
    var Loop: bool

    /** The current key frame, if any, is the source's key frame at
        currentPosition, and the stream shows its image (nothing while no key
        frame is current). */
    ghost predicate Valid()
      reads this
    {
      (currentFrame == null <==> currentPosition.None?)
      && (currentPosition.Some? ==>
            AnimationSource != null && currentPosition.value < |AnimationSource.KeyFrames|
            && currentFrame == AnimationSource.KeyFrames[currentPosition.value])
      && streamFrame == if currentFrame == null then None else Some(currentFrame.Frame)
    }

    /** The cursor's state. Everything it is built from is a field of this
        object or never changes. */
    ghost function View(): Cursor
      reads this
    {
      Cursor(
        if AnimationSource == null then None else Some(|AnimationSource.KeyFrames|),
        currentFrameIndex,
        currentPosition,
        Loop)
    }

    /** 0 without a source. */
    function FrameCount(): nat
    {
      if AnimationSource == null then 0 else |AnimationSource.KeyFrames|
    }

    /** 0 without a source. */
    function Duration(): int
    {
      if AnimationSource == null then 0 else AnimationSource.Duration
    }

    /** A new cursor at index 0, not looping, with no current frame yet. */
    constructor (source: KeyFramesAnimation?)
      ensures Valid()
      ensures AnimationSource == source
      ensures View() == Cursor(if source == null then None else Some(|source.KeyFrames|), 0, None, false)
      ensures streamFrame == None
    {
      AnimationSource := source;
      currentFrameIndex := 0;
      currentFrame := null;
      currentPosition := None;
      streamFrame := None;
      Loop := false;
    }

    /** UpdateFrame. */
    method UpdateFrame() returns (fault: Option<Fault>)
      requires Valid()
      modifies this
      ensures Valid()
      ensures Step(View(), fault) == Update(old(View()))
    {
      if AnimationSource == null {
        return Some(NullReference);
      }
      var keyFrames := AnimationSource.KeyFrames;
      if currentFrameIndex < 0 || currentFrameIndex >= |keyFrames| {
        return Some(IndexOutOfRange(currentFrameIndex, |keyFrames|));
      }
      currentFrame := keyFrames[currentFrameIndex];
      currentPosition := Some(currentFrameIndex);
      streamFrame := Some(currentFrame.Frame);
      fault := None;
    }

    /** The CurrentFrameIndex setter: an index outside [0, FrameCount) raises
        an out-of-range error and changes nothing. */
    method SetCurrentFrameIndex(index: int) returns (fault: Option<Fault>)
      requires Valid()
      modifies this
      ensures Valid()
      ensures Step(View(), fault) == SetIndex(old(View()), index)
    {
      if AnimationSource == null {
        return Some(NullReference);
      }
      var keyFrames := AnimationSource.KeyFrames;
      if index < 0 || index >= |keyFrames| {
        return Some(IndexOutOfRange(index, |keyFrames|));
      }
      currentFrameIndex := index;
      fault := UpdateFrame();
    }

    method NextFrame() returns (fault: Option<Fault>)
      requires Valid()
      modifies this
      ensures Valid()
      ensures Step(View(), fault) == Next(old(View()))
    {
      currentFrameIndex := currentFrameIndex + 1;
      if AnimationSource == null {
        return Some(NullReference);
      }
      if currentFrameIndex >= |AnimationSource.KeyFrames| {
        if Loop == false {
          return None;
        }
        currentFrameIndex := 0;
      }
      fault := UpdateFrame();
    }

    method PrevFrame() returns (fault: Option<Fault>)
      requires Valid()
      modifies this
      ensures Valid()
      ensures Step(View(), fault) == Prev(old(View()))
    {
      currentFrameIndex := currentFrameIndex - 1;
      if currentFrameIndex <= 0 {
        if Loop == false {
          return None;
        }
        currentFrameIndex := FrameCount() - 1;
      }
      fault := UpdateFrame();
    }
  }
}

=== FILE: gif_decoding.dfy ===
/** The GIF compositing pass (Animation/GifDecoder.cs).

    The frame decoder's output is taken as given: the logical screen size and,
    per raw frame, its pixel size and the metadata queries that were present.
    Raw frame k is the symbolic image `Raw(k)`; the images the pass builds are
    `Compose` and `Cleared` terms over them. The pass keeps a "base frame"
    from one raw frame to the next according to each frame's disposal method
    (the Graphic Control Extension of section 23 of the GIF89a specification)
    and emits key frames whose delays run one frame behind. */
module GifDecoding {

  import opened Common
  import opened Imaging
  import opened KeyFrames

  /** Disposal methods. A code outside 0..3 survives the cast to the enum as an
      unlisted value. */
  datatype Disposal =
    | NotSpecified       // 0
    | DoNotDispose       // 1
    | RestoreBackground  // 2
    | RestorePrevious    // 3
    | Unlisted(code: int)

  function DisposalOf(code: int): Disposal
  {
    if code == 0 then NotSpecified
    else if code == 1 then DoNotDispose
    else if code == 2 then RestoreBackground
    else if code == 3 then RestorePrevious
    else Unlisted(code)
  }

  /** The metadata queries of one raw frame; None where a query is absent.
      `delay` is in hundredths of a second. */
  datatype FrameQueries = FrameQueries(
    delay: Option<int>,
    disposal: Option<int>,
    left: Option<int>,
    top: Option<int>,
    width: Option<int>,
    height: Option<int>)

  /** A raw frame: its pixel size and its metadata queries. */
  datatype RawFrame = RawFrame(pixelWidth: int, pixelHeight: int, queries: FrameQueries)

  /** Placement, delay (milliseconds) and disposal of one raw frame. */
  datatype FrameMetadata = FrameMetadata(
    left: int, top: int, width: int, height: int,
    delay: int,
    disposal: Disposal)

  /** The logical screen size; an absent dimension is 0. */
  function GetFullSize(width: Option<int>, height: Option<int>): (s: Size)
    ensures s.width == (if width.Some? then width.value else 0)
    ensures s.height == (if height.Some? then height.value else 0)
  {
    Size(width.GetOr(0), height.GetOr(0))
  }

  /** A frame's metadata with the defaults filled in. */
  function GetFrameMetadata(raw: RawFrame): (m: FrameMetadata)
    // delay: ten times the stored hundredths, or 100 ms when absent or zero
    ensures raw.queries.delay.None? ==> m.delay == 100
    ensures raw.queries.delay == Some(0) ==> m.delay == 100
    ensures raw.queries.delay.Some? && raw.queries.delay.value != 0 ==> m.delay == raw.queries.delay.value * 10
    ensures (raw.queries.delay.Some? ==> raw.queries.delay.value >= 0) ==> m.delay >= 10
    // placement: the origin and the raw frame's own pixel size when absent
    ensures m.left == (if raw.queries.left.Some? then raw.queries.left.value else 0)
    ensures m.top == (if raw.queries.top.Some? then raw.queries.top.value else 0)
    ensures m.width == (if raw.queries.width.Some? then raw.queries.width.value else raw.pixelWidth)
    ensures m.height == (if raw.queries.height.Some? then raw.queries.height.value else raw.pixelHeight)
    // disposal: the queried code cast to the enum, code 0 when absent
    ensures raw.queries.disposal.None? ==> m.disposal == NotSpecified
    ensures raw.queries.disposal.Some? ==> m.disposal == DisposalOf(raw.queries.disposal.value)
  {
    var metadataDelay := raw.queries.delay.GetOr(10);
    var delay := if metadataDelay != 0 then metadataDelay * 10 else 100;
    FrameMetadata(
      raw.queries.left.GetOr(0),
      raw.queries.top.GetOr(0),
      raw.queries.width.GetOr(raw.pixelWidth),
      raw.queries.height.GetOr(raw.pixelHeight),
      delay,
      DisposalOf(raw.queries.disposal.GetOr(0)))
  }

  function Placement(m: FrameMetadata): Rect
  {
    Rect(m.left, m.top, m.width, m.height)
  }

  /** The frame covers the whole logical screen. */
  predicate IsFullFrame(m: FrameMetadata, fullSize: Size)
  {
    m.left == 0 && m.top == 0 && m.width == fullSize.width && m.height == fullSize.height
  }

  /** The displayed image for one raw frame: the raw frame itself when there is
      no base frame and it covers the screen, otherwise the base (if any) over
      the whole screen with the raw frame drawn at its placement on top. */
  function MakeFrame(fullSize: Size, rawFrame: Img, m: FrameMetadata, baseFrame: Option<Img>): (r: Img)
    ensures r == rawFrame <==> baseFrame.None? && IsFullFrame(m, fullSize)
    ensures r != rawFrame ==> r == Compose(fullSize, baseFrame, rawFrame, Placement(m))
  {
    if baseFrame.None? && IsFullFrame(m, fullSize) then rawFrame
    else
      assert Depth(Compose(fullSize, baseFrame, rawFrame, Placement(m))) > Depth(rawFrame);
      Compose(fullSize, baseFrame, rawFrame, Placement(m))
  }

  /** `frame` with the frame's placement rectangle cleared. */
  function ClearArea(frame: Img, m: FrameMetadata): Img
  {
    Cleared(frame, Placement(m))
  }

  /** The base frame for the next raw frame, chosen by this frame's disposal
      method; RestorePrevious and unlisted codes have no branch and keep the
      base frame as it was. */
  function NextBase(fullSize: Size, m: FrameMetadata, frame: Img, baseFrame: Option<Img>): (r: Option<Img>)
    ensures m.disposal.NotSpecified? || m.disposal.DoNotDispose? ==> r == Some(frame)
    ensures m.disposal.RestoreBackground? && IsFullFrame(m, fullSize) ==> r == None
    ensures m.disposal.RestoreBackground? && !IsFullFrame(m, fullSize) ==> r == Some(Cleared(frame, Placement(m)))
    ensures m.disposal.RestorePrevious? || m.disposal.Unlisted? ==> r == baseFrame
  {
    match m.disposal
    case NotSpecified => Some(frame)
    case DoNotDispose => Some(frame)
    case RestoreBackground => if IsFullFrame(m, fullSize) then None else Some(ClearArea(frame, m))
    case RestorePrevious => baseFrame
    case Unlisted(_) => baseFrame
  }

  function MetadataOf(raws: seq<RawFrame>): (ms: seq<FrameMetadata>)
    ensures |ms| == |raws|
    ensures forall i :: 0 <= i < |raws| ==> ms[i] == GetFrameMetadata(raws[i])
  {
    seq(|raws|, i requires 0 <= i < |raws| => GetFrameMetadata(raws[i]))
  }

  function MetadataDelays(ms: seq<FrameMetadata>): (ds: seq<int>)
    ensures |ds| == |ms|
    ensures forall i :: 0 <= i < |ms| ==> ds[i] == ms[i].delay
  {
    seq(|ms|, i requires 0 <= i < |ms| => ms[i].delay)
  }

  /** The base frame in effect when raw frame i is composited. */
  function BaseBefore(fullSize: Size, ms: seq<FrameMetadata>, i: nat): Option<Img>
    requires i <= |ms|
    decreases i, 0
  {
    if i == 0 then None
    else NextBase(fullSize, ms[i - 1], Output(fullSize, ms, i - 1), BaseBefore(fullSize, ms, i - 1))
  }

  /** The composited image of raw frame i. */
  function Output(fullSize: Size, ms: seq<FrameMetadata>, i: nat): Img
    requires i < |ms|
    decreases i, 1
  {
    MakeFrame(fullSize, Raw(i), ms[i], BaseBefore(fullSize, ms, i))
  }

  /** The delay given to key frame i: 0 for the first, and the metadata delay of
      the raw frame before it for the others. */
  function KeyFrameDelay(ms: seq<FrameMetadata>, i: nat): int
    requires i < |ms|
  {
    if i == 0 then 0 else ms[i - 1].delay
  }

  /** The state of the decoding loop after i raw frames: one key frame per
      decoded raw frame, each holding its composited image and the previous
      raw frame's delay, the base frame and pending delay for raw frame i, and
      the sum of the decoded raw frames' delays. */
  ghost predicate Decoded(fullSize: Size, ms: seq<FrameMetadata>, i: int, keyFrames: seq<KeyFrame>,
                          totalDuration: int, delay: int, baseFrame: Option<Img>)
    reads keyFrames
  {
    0 <= i <= |ms| && |keyFrames| == i
    && baseFrame == BaseBefore(fullSize, ms, i)
    && delay == (if i == 0 then 0 else ms[i - 1].delay)
    && totalDuration == Sum(MetadataDelays(ms)[..i])
    && AllDistinct(keyFrames)
    && (forall j :: 0 <= j < i ==> keyFrames[j].Frame == Output(fullSize, ms, j))
    && (forall j :: 0 <= j < i ==> keyFrames[j].Delay == KeyFrameDelay(ms, j))
  }

  /** One turn of the decoding loop: composites raw frame i and appends its
      key frame. */
  method DecodeFrame(fullSize: Size, rawFrames: seq<RawFrame>, i: int, keyFrames: seq<KeyFrame>,
                     totalDuration: int, delay: int, baseFrame: Option<Img>)
    returns (keyFrames': seq<KeyFrame>, totalDuration': int, delay': int, baseFrame': Option<Img>)
    requires i < |rawFrames|
    requires Decoded(fullSize, MetadataOf(rawFrames), i, keyFrames, totalDuration, delay, baseFrame)
    ensures Decoded(fullSize, MetadataOf(rawFrames), i + 1, keyFrames', totalDuration', delay', baseFrame')
    ensures keyFrames'[..i] == keyFrames && fresh(keyFrames'[i])
  {
    ghost var ms := MetadataOf(rawFrames);
    var metadata := GetFrameMetadata(rawFrames[i]);
    var frame := MakeFrame(fullSize, Raw(i), metadata, baseFrame);
    var keyFrame := new KeyFrame(frame, delay);
    AppendDistinct(keyFrames, keyFrame);
    keyFrames' := keyFrames + [keyFrame];
    delay' := metadata.delay;
    SumStep(MetadataDelays(ms), i);
    totalDuration' := totalDuration + delay';
    baseFrame' := NextBase(fullSize, metadata, frame, baseFrame);
    assert keyFrames'[..i] == keyFrames;
  }

  /** Decodes the raw frames into a key-frame animation: one fresh key frame
      per raw frame, in decode order, holding the composited image and the
      previous raw frame's delay; Duration is the sum of all raw delays, and
      the frame size is the logical screen size. */
  method DecodeFrames(screenWidth: Option<int>, screenHeight: Option<int>, rawFrames: seq<RawFrame>)
    returns (animation: KeyFramesAnimation)
    ensures fresh(animation)
    ensures |animation.KeyFrames| == |rawFrames|
    ensures forall i :: 0 <= i < |rawFrames| ==> fresh(animation.KeyFrames[i])
    ensures animation.Distinct()
    ensures forall i :: 0 <= i < |rawFrames| ==>
      animation.KeyFrames[i].Frame == Output(GetFullSize(screenWidth, screenHeight), MetadataOf(rawFrames), i)
    ensures forall i :: 0 <= i < |rawFrames| ==>
      animation.KeyFrames[i].Delay == KeyFrameDelay(MetadataOf(rawFrames), i)
    ensures animation.Duration == Sum(MetadataDelays(MetadataOf(rawFrames)))
    ensures animation.FrameWidth == GetFullSize(screenWidth, screenHeight).width
    ensures animation.FrameHeight == GetFullSize(screenWidth, screenHeight).height
  {
    var fullSize := GetFullSize(screenWidth, screenHeight);
    var keyFrames: seq<KeyFrame> := [];
    var totalDuration := 0;
    var delay := 0;
    var baseFrame: Option<Img> := None;
    var i := 0;
    while i < |rawFrames|
      invariant Decoded(fullSize, MetadataOf(rawFrames), i, keyFrames, totalDuration, delay, baseFrame)
      invariant forall j :: 0 <= j < i ==> fresh(keyFrames[j])
    {
      keyFrames, totalDuration, delay, baseFrame := DecodeFrame(fullSize, rawFrames, i, keyFrames, totalDuration, delay, baseFrame);
      i := i + 1;
    }
    assert MetadataDelays(MetadataOf(rawFrames))[..|rawFrames|] == MetadataDelays(MetadataOf(rawFrames));
    animation := new KeyFramesAnimation(keyFrames, totalDuration, fullSize.width, fullSize.height);
  }

  /** The key-frame delays run one frame behind the raw delays, so the raw
      delays add up to the key-frame delays plus the last raw delay. */
  lemma {:induction false} DurationExceedsKeyFrameDelays(ms: seq<FrameMetadata>)
    requires |ms| > 0
    ensures Sum(MetadataDelays(ms)) == Sum(KeyFrameDelays(ms)) + ms[|ms| - 1].delay
  {
    var n := |ms|;
    if n > 1 {
      var front := ms[..n - 1];
      DurationExceedsKeyFrameDelays(front);
      assert MetadataDelays(ms)[..n - 1] == MetadataDelays(front);
      assert KeyFrameDelays(ms)[..n - 1] == KeyFrameDelays(front);
    } else {
      assert MetadataDelays(ms)[..0] == [];
      assert KeyFrameDelays(ms)[..0] == [];
    }
  }

  /** The delays of all key frames, in order. */
  function KeyFrameDelays(ms: seq<FrameMetadata>): (ds: seq<int>)
    ensures |ds| == |ms|
    ensures forall i :: 0 <= i < |ms| ==> ds[i] == KeyFrameDelay(ms, i)
  {
    seq(|ms|, i requires 0 <= i < |ms| => KeyFrameDelay(ms, i))
  }

  /** When every frame covers the screen and restores the background, no
      compositing ever happens: each key frame is its raw frame. */
  lemma {:induction false} FullRestoreBackgroundPassesThrough(fullSize: Size, ms: seq<FrameMetadata>, i: nat)
    requires forall j :: 0 <= j < |ms| ==> IsFullFrame(ms[j], fullSize) && ms[j].disposal.RestoreBackground?
    requires i < |ms|
    ensures BaseBefore(fullSize, ms, i) == None
    ensures Output(fullSize, ms, i) == Raw(i)
  {
    if i > 0 {
      FullRestoreBackgroundPassesThrough(fullSize, ms, i - 1);
    }
  }

  /** When every frame covers the screen and has disposal 0 or 1, only the
      first key frame is its raw frame; every later one is composited over the
      previous key frame. */
  lemma FullKeepFramesAccumulate(fullSize: Size, ms: seq<FrameMetadata>, i: nat)
    requires forall j :: 0 <= j < |ms| ==>
      IsFullFrame(ms[j], fullSize) && (ms[j].disposal.NotSpecified? || ms[j].disposal.DoNotDispose?)
    requires i < |ms|
    ensures i == 0 ==> Output(fullSize, ms, i) == Raw(0)
    ensures i > 0 ==>
      Output(fullSize, ms, i) == Compose(fullSize, Some(Output(fullSize, ms, i - 1)), Raw(i), Rect(0, 0, fullSize.width, fullSize.height))
  {
  }

  /** A run of RestorePrevious (or unlisted) frames leaves the base frame that
      preceded the run in place. */
  lemma {:induction false} RestorePreviousKeepsBase(fullSize: Size, ms: seq<FrameMetadata>, j: nat, i: nat)
    requires j <= i <= |ms|
    requires forall k :: j <= k < i ==> ms[k].disposal.RestorePrevious? || ms[k].disposal.Unlisted?
    ensures BaseBefore(fullSize, ms, i) == BaseBefore(fullSize, ms, j)
  {
    if j < i {
      RestorePreviousKeepsBase(fullSize, ms, j, i - 1);
    }
  }
}

=== FILE: keyframes.dfy ===
/** Key frames and key-frame animations (Animation/KeyFramesAnimation.cs).

    A KeyFrame pairs a displayable image with a delay in milliseconds. A
    freshly decoded animation holds RELATIVE delays (time since the previous
    key frame); MakeAbsoluteTimingKeyFrame turns them, in place, into ABSOLUTE
    delays (time since the animation started). Clone makes a deep copy, so that
    the conversion never touches the KeyFrame objects of the original. */
module KeyFrames {

  import opened Imaging

  class KeyFrame {
    /** The image is never reassigned after construction. */
    const Frame: Img
    var Delay: int

    constructor (frame: Img, delay: int)
      ensures Frame == frame && Delay == delay
    {
      Frame := frame;
      Delay := delay;
    }

    /** A new KeyFrame object with the same image and delay. */
    method Clone() returns (k: KeyFrame)
      ensures fresh(k)
      ensures k.Frame == Frame && k.Delay == Delay
    {
      k := new KeyFrame(Frame, Delay);
    }
  }

  /** The delays held by a sequence of KeyFrame objects, in order. */
  function DelaysIn(ks: seq<KeyFrame>): (ds: seq<int>)
    reads ks
    ensures |ds| == |ks|
    ensures forall i :: 0 <= i < |ks| ==> ds[i] == ks[i].Delay
  {
    if ks == [] then [] else DelaysIn(ks[..|ks| - 1]) + [ks[|ks| - 1].Delay]
  }

  /** The images of a sequence of KeyFrame objects, in order (images are
      never reassigned, so this reads no state). */
  function FramesIn(ks: seq<KeyFrame>): (fs: seq<Img>)
    ensures |fs| == |ks|
    ensures forall i :: 0 <= i < |ks| ==> fs[i] == ks[i].Frame
  {
    seq(|ks|, i requires 0 <= i < |ks| => ks[i].Frame)
  }

  /** The sum of a sequence of delays. */
  function Sum(d: seq<int>): int
  {
    if d == [] then 0 else Sum(d[..|d| - 1]) + d[|d| - 1]
  }

  /** Absolute delays: element i is the sum of the relative delays 0..i. */
  function PrefixSums(d: seq<int>): (r: seq<int>)
    ensures |r| == |d|
    ensures forall i :: 0 <= i < |d| ==> r[i] == Sum(d[..i + 1])
  {
    if d == [] then []
    else
      var front := d[..|d| - 1];
      assert forall j :: 0 < j <= |front| ==> front[..j] == d[..j];
      assert d[..|d|] == d;
      PrefixSums(front) + [Sum(d)]
  }

  /** Relative delays recovered from absolute ones. */
  function Differences(a: seq<int>): (d: seq<int>)
    ensures |d| == |a|
  {
    seq(|a|, i requires 0 <= i < |a| => if i == 0 then a[0] else a[i] - a[i - 1])
  }

  lemma SumStep(d: seq<int>, i: nat)
    requires i < |d|
    ensures Sum(d[..i + 1]) == Sum(d[..i]) + d[i]
  {
    assert d[..i + 1][..i] == d[..i];
  }

  /** Round trip: converting to absolute delays and back gives the relative
      delays that were converted. */
  lemma {:induction false} DifferencesOfPrefixSums(d: seq<int>)
    ensures Differences(PrefixSums(d)) == d
  {
    var a := PrefixSums(d);
    forall i | 0 <= i < |d|
      ensures Differences(a)[i] == d[i]
    {
      SumStep(d, i);
      if i == 0 {
        assert d[..0] == [];
      } else {
        assert a[i - 1] == Sum(d[..i]);
      }
    }
  }

  /** The other direction: any absolute timeline is the prefix sum of its own
      differences. */
  lemma {:induction false} PrefixSumsOfDifferences(a: seq<int>)
    ensures PrefixSums(Differences(a)) == a
  {
    var d := Differences(a);
    forall i | 0 <= i < |a|
      ensures PrefixSums(d)[i] == a[i]
    {
      SumOfDifferences(a, i);
    }
  }

  lemma {:induction false} SumOfDifferences(a: seq<int>, i: nat)
    requires i < |a|
    ensures Sum(Differences(a)[..i + 1]) == a[i]
  {
    var d := Differences(a);
    SumStep(d, i);
    if i == 0 {
      assert d[..0] == [];
    } else {
      SumOfDifferences(a, i - 1);
    }
  }

  /** No key frame object occurs twice in ks, so updating one key frame
      through ks changes no other entry. */
  predicate AllDistinct(ks: seq<KeyFrame>)
  {
    forall i, j :: 0 <= i < j < |ks| ==> ks[i] != ks[j]
  }

  /** Appending a key frame that is not in ks keeps the entries distinct. */
  lemma AppendDistinct(ks: seq<KeyFrame>, k: KeyFrame)
    requires AllDistinct(ks) && k !in ks
    ensures AllDistinct(ks + [k])
  {
    assert forall i :: 0 <= i < |ks| ==> (ks + [k])[i] == ks[i];
  }

  /** Non-negative relative delays give a non-decreasing absolute timeline. */
  lemma {:induction false} PrefixSumsMonotone(d: seq<int>)
    requires forall i :: 0 <= i < |d| ==> d[i] >= 0
    ensures forall i, j :: 0 <= i <= j < |d| ==> PrefixSums(d)[i] <= PrefixSums(d)[j]
  {
    var a := PrefixSums(d);
    forall i, j | 0 <= i <= j < |d|
      ensures a[i] <= a[j]
    {
      var k := i;
      while k < j
        invariant i <= k <= j
        invariant a[i] <= a[k]
      {
        SumStep(d, k + 1);
        k := k + 1;
      }
    }
  }

  class KeyFramesAnimation {
    /** The key frames in display order. The array of the source is only
        written while it is being built, so it is held here as a sequence of
        KeyFrame references; the KeyFrame objects themselves stay mutable. */
    const KeyFrames: seq<KeyFrame>
    /** The total play time, in milliseconds. */
    const Duration: int
    const FrameWidth: int
    const FrameHeight: int

    constructor (keyFrames: seq<KeyFrame>, duration: int, width: int, height: int)
      ensures KeyFrames == keyFrames && Duration == duration
      ensures FrameWidth == width && FrameHeight == height
    {
      KeyFrames := keyFrames;
      Duration := duration;
      FrameWidth := width;
      FrameHeight := height;
    }

    /** No KeyFrame object occurs twice. */
    predicate Distinct()
    {
      AllDistinct(KeyFrames)
    }

    function Delays(): seq<int>
      reads KeyFrames
    {
      DelaysIn(KeyFrames)
    }

    /** A deep copy: a new array of new KeyFrame objects with the same images
        and delays, and the same duration and size. */
    method Clone() returns (c: KeyFramesAnimation)
      ensures fresh(c)
      ensures |c.KeyFrames| == |KeyFrames|
      ensures forall i :: 0 <= i < |KeyFrames| ==> fresh(c.KeyFrames[i])
      ensures c.Distinct()
      ensures FramesIn(c.KeyFrames) == FramesIn(KeyFrames)
      ensures c.Delays() == Delays()
      ensures c.Duration == Duration && c.FrameWidth == FrameWidth && c.FrameHeight == FrameHeight
    {
      var frames: seq<KeyFrame> := [];
      var i := 0;
      while i < |KeyFrames|
        invariant 0 <= i <= |KeyFrames| && |frames| == i
        invariant forall j :: 0 <= j < i ==> fresh(frames[j])
        invariant forall j :: 0 <= j < i ==> frames[j].Frame == KeyFrames[j].Frame && frames[j].Delay == KeyFrames[j].Delay
        invariant AllDistinct(frames)
      {
        var k := KeyFrames[i].Clone();
        AppendDistinct(frames, k);
        frames := frames + [k];
        i := i + 1;
      }
      assert FramesIn(frames) == FramesIn(KeyFrames);
      assert DelaysIn(frames) == DelaysIn(KeyFrames);
      c := new KeyFramesAnimation(frames, Duration, FrameWidth, FrameHeight);
    }

    /** Turns the relative delays into absolute ones, in place: afterwards the
        delay of key frame i is the sum of the old delays of key frames 0..i.
        Images, the number of key frames and Duration are untouched. */
    method MakeAbsoluteTimingKeyFrame()
      requires Distinct()
      modifies KeyFrames
      ensures Delays() == PrefixSums(old(Delays()))
    {
      ghost var d := Delays();
      var absoluteTime := 0;
      var i := 0;
      while i < |KeyFrames|
        invariant 0 <= i <= |KeyFrames|
        invariant absoluteTime == Sum(d[..i])
        invariant forall j :: 0 <= j < i ==> KeyFrames[j].Delay == Sum(d[..j + 1])
        invariant forall j :: i <= j < |KeyFrames| ==> KeyFrames[j].Delay == d[j]
      {
        SumStep(d, i);
        absoluteTime := absoluteTime + KeyFrames[i].Delay;
        KeyFrames[i].Delay := absoluteTime;
        i := i + 1;
      }
    }
  }
}

=== FILE: threading_control.dfy ===
/** The worker-thread controller (Animation/ThreadingFrameController.cs).

    The schedule is a list of Frame records, one per playing registration,
    each holding the time left until that registration's cursor is due. One
    cycle of the worker (taken as one atomic step: the worker holds the lock
    for all of it) dispatches the due frames to their handlers, advances the
    cursors of the frames it dispatched, drops the registrations of cursors
    that ran past their last key frame, and rebases the remaining delays on
    the smallest one, which is then slept. Threads, signals, the lock and the
    clock are not modelled: the time slept is a parameter.

    The cycle reads the delay of a cursor's current key frame when the cursor
    stands on its last key frame; a cursor that was never updated has no
    current key frame there, and the cycle raises a null-reference error (see
    the findings in README.md). The worker's cycle (RunCycle) uses the read
    as written; the corrected read is AdvanceFrameFixed, the pass and the
    cycle take the step as a StepRule, and CycleAgrees states when the two
    cycles agree. */
module ThreadingControl {

  import opened Common
  import opened KeyFrames
  import opened FrameCursor
  import opened FrameControl

  /** A registration: the cursor, the handler it feeds, and the controller
      time of registration. */
  datatype ControlNode = ControlNode(animation: FrameAnimation, handler: FrameHandler, startTime: int)

  /** An entry of the schedule: the time left until the registration is due,
      and whether the current cycle has dispatched it. */
  datatype Frame = Frame(node: ControlNode, delay: int, played: bool)

  /** A call of the handler's OnIncommingFrame with the cursor's frame
      stream (the stream belongs to the cursor, so the cursor stands for it). */
  datatype Dispatch = Dispatch(handler: FrameHandler, stream: FrameAnimation)

  // ---------------------------------------------------------------------
  // Sequences.

  /** xs is xs' with elements left out, in the same order. */
  predicate Embeds<T(==)>(xs: seq<T>, ys: seq<T>)
    decreases |ys|
  {
    if xs == [] then true
    else if ys == [] then false
    else (xs[0] == ys[0] && Embeds(xs[1..], ys[1..])) || Embeds(xs, ys[1..])
  }

  lemma {:induction false} EmbedsReflexive<T>(xs: seq<T>)
    ensures Embeds(xs, xs)
    decreases |xs|
  {
    if xs != [] {
      EmbedsReflexive(xs[1..]);
    }
  }

  /** Everything an embedded sequence holds is held by the larger one. */
  lemma {:induction false} EmbedsMembers<T>(xs: seq<T>, ys: seq<T>)
    requires Embeds(xs, ys)
    ensures forall x :: x in xs ==> x in ys
    decreases |ys|
  {
    if xs != [] && ys != [] {
      if xs[0] == ys[0] && Embeds(xs[1..], ys[1..]) {
        EmbedsMembers(xs[1..], ys[1..]);
        assert forall x :: x in xs ==> x == xs[0] || x in xs[1..];
      } else {
        EmbedsMembers(xs, ys[1..]);
      }
    }
  }

  /** The registrations of a sequence of schedule entries, in order. */
  function Nodes(fs: seq<Frame>): (ns: seq<ControlNode>)
    ensures |ns| == |fs|
    ensures forall i :: 0 <= i < |fs| ==> ns[i] == fs[i].node
  {
    seq(|fs|, i requires 0 <= i < |fs| => fs[i].node)
  }

  /** The cursors scheduled by fs. */
  function Animations(fs: seq<Frame>): set<FrameAnimation>
  {
    set f | f in fs :: f.node.animation
  }

  // ---------------------------------------------------------------------
  // OnFramesChange: dispatching the due frames.

  /** A frame is due once its delay has run out. */
  predicate Due(f: Frame)
  {
    f.delay <= 0
  }

  /** The schedule after OnFramesChange: exactly the due frames are marked as
      played, and nothing else changes. */
  function MarkDue(fs: seq<Frame>): (r: seq<Frame>)
    ensures |r| == |fs| && Nodes(r) == Nodes(fs)
    ensures forall i :: 0 <= i < |fs| ==>
      r[i].node == fs[i].node && r[i].delay == fs[i].delay && (r[i].played <==> fs[i].played || Due(fs[i]))
  {
    seq(|fs|, i requires 0 <= i < |fs| => if Due(fs[i]) then fs[i].(played := true) else fs[i])
  }

  /** The handler calls OnFramesChange makes, in schedule order. */
  function Dispatches(fs: seq<Frame>): (ds: seq<Dispatch>)
    ensures |ds| <= |fs|
  {
    if fs == [] then []
    else (if Due(fs[0]) then [Dispatch(fs[0].node.handler, fs[0].node.animation)] else []) + Dispatches(fs[1..])
  }

  /** A handler is called with a cursor's stream exactly when some due frame
      of the schedule registers that cursor with that handler. */
  lemma {:induction false} DispatchesAreDueFrames(fs: seq<Frame>, d: Dispatch)
    ensures d in Dispatches(fs) <==>
      exists i :: 0 <= i < |fs| && Due(fs[i]) && d == Dispatch(fs[i].node.handler, fs[i].node.animation)
  {
    if fs != [] {
      DispatchesAreDueFrames(fs[1..], d);
      if d in Dispatches(fs[1..]) {
        var i :| 0 <= i < |fs[1..]| && Due(fs[1..][i]) && d == Dispatch(fs[1..][i].node.handler, fs[1..][i].node.animation);
        assert fs[i + 1] == fs[1..][i];
      }
      if exists i :: 0 <= i < |fs| && Due(fs[i]) && d == Dispatch(fs[i].node.handler, fs[i].node.animation) {
        var i :| 0 <= i < |fs| && Due(fs[i]) && d == Dispatch(fs[i].node.handler, fs[i].node.animation);
        if i > 0 {
          assert fs[1..][i - 1] == fs[i];
        }
      }
    }
  }

  /** OnFramesChange, on the schedule it is handed: calls the handler of
      every due frame, in order, and marks those frames as played. */
  method OnFramesChange(frames: seq<Frame>) returns (marked: seq<Frame>, dispatched: seq<Dispatch>)
    ensures marked == MarkDue(frames)
    ensures dispatched == Dispatches(frames)
  {
    marked := frames;
    dispatched := [];
    var i := 0;
    while i < |frames|
      invariant 0 <= i <= |frames| && |marked| == |frames|
      invariant forall j :: 0 <= j < i ==> marked[j] == MarkDue(frames)[j]
      invariant forall j :: i <= j < |frames| ==> marked[j] == frames[j]
      invariant dispatched + Dispatches(frames[i..]) == Dispatches(frames)
    {
      assert frames[i..][1..] == frames[i + 1..];
      var frame := marked[i];
      if frame.delay <= 0 {
        dispatched := dispatched + [Dispatch(frame.node.handler, frame.node.animation)];
        marked := marked[i := frame.(played := true)];
      }
      i := i + 1;
    }
  }

  // ---------------------------------------------------------------------
  // Advancing one played frame.

  /** c is a cursor over an animation whose key frames have the delays ds. */
  predicate Consistent(c: Cursor, ds: seq<int>)
  {
    c.frameCount == Some(|ds|) && (c.current.Some? ==> c.current.value < |ds|)
  }

  /** A frame after the advance step, its cursor, and the error raised. */
  datatype Advanced = Advanced(cursor: Cursor, frame: Frame, fault: Option<Fault>)

  /** The advance step as written: a played frame on its cursor's last key
      frame takes the delay of the cursor's current key frame and then moves
      the cursor on; any other played frame moves the cursor on first and
      then takes the delay of the new current key frame. A cursor without a
      current key frame raises a null-reference error. */
  function AdvanceFrame(f: Frame, c: Cursor, ds: seq<int>): (r: Advanced)
    requires Consistent(c, ds) && |ds| > 0
    ensures Consistent(r.cursor, ds)
    ensures r.cursor.loop == c.loop && r.frame.node == f.node
    ensures !f.played ==> r == Advanced(c, f, None)
  {
    if !f.played then Advanced(c, f, None)
    else if c.index == FrameCount(c) - 1 then
      match c.current
      case None => Advanced(c, f, Some(NullReference))
      case Some(p) =>
        var s := Next(c);
        Advanced(s.cursor, f.(delay := ds[p], played := false), s.fault)
    else
      var s := Next(c);
      if s.fault.Some? then Advanced(s.cursor, f, s.fault)
      else
        match s.cursor.current
        case None => Advanced(s.cursor, f, Some(NullReference))
        case Some(p) => Advanced(s.cursor, f.(delay := ds[p], played := false), None)
  }

  /** The corrected advance step: on the last key frame the delay is read
      from the key frame at the cursor's index, which exists whether or not
      the cursor was ever updated. */
  function AdvanceFrameFixed(f: Frame, c: Cursor, ds: seq<int>): (r: Advanced)
    requires Consistent(c, ds) && |ds| > 0
    ensures Consistent(r.cursor, ds)
    ensures r.cursor.loop == c.loop && r.frame.node == f.node
    ensures !f.played ==> r == Advanced(c, f, None)
  {
    if !f.played then Advanced(c, f, None)
    else if c.index == FrameCount(c) - 1 then
      var s := Next(c);
      Advanced(s.cursor, f.(delay := ds[c.index], played := false), s.fault)
    else
      var s := Next(c);
      if s.fault.Some? then Advanced(s.cursor, f, s.fault)
      else
        match s.cursor.current
        case None => Advanced(s.cursor, f, Some(NullReference))
        case Some(p) => Advanced(s.cursor, f.(delay := ds[p], played := false), None)
  }

  /** A played frame whose cursor stands inside the animation is advanced
      without error by the corrected step: its cursor moves on one key frame
      (back to 0 after the last one when looping, past the end otherwise),
      and the frame waits for the key frame it was dispatched for (on the
      last key frame) or for the key frame now shown (elsewhere). */
  lemma AdvanceFrameFixedMovesOn(f: Frame, c: Cursor, ds: seq<int>)
    requires Consistent(c, ds) && |ds| > 0 && -1 <= c.index < |ds|
    requires f.played
    ensures var r := AdvanceFrameFixed(f, c, ds);
      && r.fault.None?
      && r.cursor == Next(c).cursor
      && !r.frame.played
      && (c.index == |ds| - 1 ==> r.frame.delay == ds[|ds| - 1])
      && (c.index < |ds| - 1 ==> r.frame.delay == ds[c.index + 1] && r.cursor.current == Some(c.index + 1))
  {
    if c.index < |ds| - 1 {
      NextInside(c);
    } else if c.loop {
      NextWraps(c);
    } else {
      NextStops(c);
    }
  }

  /** The two steps differ only on a played frame whose cursor stands on its
      last key frame with a current key frame other than that one; when the
      cursor has no current key frame at all, only the step as written
      fails. */
  lemma AdvanceFrameFixedAgrees(f: Frame, c: Cursor, ds: seq<int>)
    requires Consistent(c, ds) && |ds| > 0
    ensures !(f.played && c.index == |ds| - 1) || c.current == Some(c.index as nat) ==>
      AdvanceFrame(f, c, ds) == AdvanceFrameFixed(f, c, ds)
    ensures f.played && c.index == |ds| - 1 && c.current.None? ==>
      AdvanceFrame(f, c, ds).fault == Some(NullReference) && AdvanceFrameFixed(f, c, ds).fault.None?
  {
    if f.played && c.index == |ds| - 1 {
      if c.loop {
        NextWraps(c);
      } else {
        NextStops(c);
      }
    }
  }

  /** Which advance step a pass uses: the one the worker runs, or the
      corrected one. */
  datatype StepRule = AsWritten | Corrected

  /** The advance step chosen by rule. */
  function Advance(f: Frame, c: Cursor, ds: seq<int>, rule: StepRule): (r: Advanced)
    requires Consistent(c, ds) && |ds| > 0
    ensures Consistent(r.cursor, ds)
    ensures r.cursor.loop == c.loop && r.frame.node == f.node
    ensures !f.played ==> r == Advanced(c, f, None)
  {
    match rule
    case AsWritten => AdvanceFrame(f, c, ds)
    case Corrected => AdvanceFrameFixed(f, c, ds)
  }

  /** A cursor that stands on its last key frame has that key frame as its
      current one. A cursor over more than one key frame is in sync when it
      is created, and every NextFrame that raises nothing leaves it in sync. */
  predicate Synced(c: Cursor)
  {
    c.index == FrameCount(c) - 1 ==> c.current.Some? && c.current.value == c.index
  }

  /** On a cursor in sync the two steps agree, and a step that raises
      nothing leaves the cursor in sync. */
  lemma SyncedStep(f: Frame, c: Cursor, ds: seq<int>)
    requires Consistent(c, ds) && |ds| > 0 && Synced(c)
    ensures AdvanceFrame(f, c, ds) == AdvanceFrameFixed(f, c, ds)
    ensures AdvanceFrame(f, c, ds).fault.None? ==> Synced(AdvanceFrame(f, c, ds).cursor)
  {
    AdvanceFrameFixedAgrees(f, c, ds);
  }

  /** A cursor that is done: it does not loop and its index has run past
      the last key frame. Its frame leaves the schedule. */
  predicate Finished(c: Cursor)
  {
    FrameCount(c) <= c.index && !c.loop
  }

  // ---------------------------------------------------------------------
  // The advance pass over the schedule.

  /** Every cursor scheduled by fs has a known state and key-frame delays. */
  predicate Covers(fs: seq<Frame>, cs: map<FrameAnimation, Cursor>, ds: map<FrameAnimation, seq<int>>)
  {
    forall f :: f in fs ==>
      f.node.animation in cs && f.node.animation in ds
      && Consistent(cs[f.node.animation], ds[f.node.animation]) && |ds[f.node.animation]| > 0
  }

  /** The outcome of the pass: the schedule, the cursors, the error that
      ended the pass early. */
  datatype Pass = Pass(kept: seq<Frame>, cursors: map<FrameAnimation, Cursor>, fault: Option<Fault>)

  /** Marking frames played keeps the schedule covered. */
  lemma MarkDueCovers(fs: seq<Frame>, cs: map<FrameAnimation, Cursor>, ds: map<FrameAnimation, seq<int>>)
    requires Covers(fs, cs, ds)
    ensures Covers(MarkDue(fs), cs, ds)
  {
    var marked := MarkDue(fs);
    forall f | f in marked
      ensures f.node.animation in cs && f.node.animation in ds
    {
      var i :| 0 <= i < |marked| && marked[i] == f;
      assert fs[i] in fs;
    }
  }

  /** The rest of a covered schedule stays covered once the cursor of its
      first frame is in a new consistent state. */
  lemma CoversNext(fs: seq<Frame>, cs: map<FrameAnimation, Cursor>, ds: map<FrameAnimation, seq<int>>, c: Cursor)
    requires Covers(fs, cs, ds) && fs != []
    requires Consistent(c, ds[fs[0].node.animation])
    ensures Covers(fs[1..], cs[fs[0].node.animation := c], ds)
  {
    assert forall f :: f in fs[1..] ==> f in fs;
  }

  /** The schedule and cursors after the advance pass over fs, starting from
      cursor states cs: the frames are visited in order, a played frame
      advances its cursor (a cursor scheduled twice advances twice), and a
      frame whose cursor is then finished is dropped. An error stops the
      pass, leaving the frame it was raised on, and the frames after it, in
      place. */
  function AdvanceAll(fs: seq<Frame>, cs: map<FrameAnimation, Cursor>, ds: map<FrameAnimation, seq<int>>, rule: StepRule): (r: Pass)
    requires Covers(fs, cs, ds)
    decreases |fs|
  {
    if fs == [] then Pass([], cs, None)
    else
      var a := fs[0].node.animation;
      var s := Advance(fs[0], cs[a], ds[a], rule);
      var cs' := cs[a := s.cursor];
      if s.fault.Some? then Pass([s.frame] + fs[1..], cs', s.fault)
      else
        CoversNext(fs, cs, ds, s.cursor);
        var rest := AdvanceAll(fs[1..], cs', ds, rule);
        Pass((if Finished(s.cursor) then [] else [s.frame]) + rest.kept, rest.cursors, rest.fault)
  }

  /** The pass advances the cursors it is given and no others, keeps their
      loop flags, and keeps each consistent with its source. */
  lemma {:induction false} AdvanceAllCursors(fs: seq<Frame>, cs: map<FrameAnimation, Cursor>, ds: map<FrameAnimation, seq<int>>, rule: StepRule)
    requires Covers(fs, cs, ds)
    ensures AdvanceAll(fs, cs, ds, rule).cursors.Keys == cs.Keys
    ensures forall a :: a in cs ==>
      AdvanceAll(fs, cs, ds, rule).cursors[a].loop == cs[a].loop
      && (a in ds && Consistent(cs[a], ds[a]) ==> Consistent(AdvanceAll(fs, cs, ds, rule).cursors[a], ds[a]))
    decreases |fs|
  {
    if fs != [] {
      var a := fs[0].node.animation;
      var s := Advance(fs[0], cs[a], ds[a], rule);
      var cs' := cs[a := s.cursor];
      if s.fault.None? {
        CoversNext(fs, cs, ds, s.cursor);
        AdvanceAllCursors(fs[1..], cs', ds, rule);
      }
    }
  }

  /** The registrations of a schedule with one more frame in front. */
  lemma NodesCons(f: Frame, fs: seq<Frame>)
    ensures Nodes([f] + fs) == [f.node] + Nodes(fs)
  {
  }

  /** An embedding extends by a common first element, and by any first
      element of the larger sequence alone. */
  lemma EmbedsCons<T>(x: T, xs: seq<T>, ys: seq<T>)
    requires Embeds(xs, ys)
    ensures Embeds([x] + xs, [x] + ys) && Embeds(xs, [x] + ys)
  {
    assert ([x] + xs)[1..] == xs && ([x] + ys)[1..] == ys;
  }

  /** The pass keeps the schedule's order: what it keeps is the schedule
      with frames left out. */
  lemma {:induction false} AdvanceAllKeepsOrder(fs: seq<Frame>, cs: map<FrameAnimation, Cursor>, ds: map<FrameAnimation, seq<int>>, rule: StepRule)
    requires Covers(fs, cs, ds)
    ensures Embeds(Nodes(AdvanceAll(fs, cs, ds, rule).kept), Nodes(fs))
    decreases |fs|
  {
    if fs != [] {
      var a := fs[0].node.animation;
      var s := Advance(fs[0], cs[a], ds[a], rule);
      var cs' := cs[a := s.cursor];
      assert [fs[0]] + fs[1..] == fs;
      NodesCons(fs[0], fs[1..]);
      if s.fault.Some? {
        assert AdvanceAll(fs, cs, ds, rule).kept == [s.frame] + fs[1..];
        NodesCons(s.frame, fs[1..]);
        EmbedsReflexive(Nodes(fs));
      } else {
        CoversNext(fs, cs, ds, s.cursor);
        var rest := AdvanceAll(fs[1..], cs', ds, rule);
        AdvanceAllKeepsOrder(fs[1..], cs', ds, rule);
        EmbedsCons(fs[0].node, Nodes(rest.kept), Nodes(fs[1..]));
        if Finished(s.cursor) {
          assert AdvanceAll(fs, cs, ds, rule).kept == rest.kept;
        } else {
          assert AdvanceAll(fs, cs, ds, rule).kept == [s.frame] + rest.kept;
          NodesCons(s.frame, rest.kept);
        }
      }
    }
  }

  /** The registrations of fs whose cursors loop, in order. */
  function LoopingNodes(fs: seq<Frame>, cs: map<FrameAnimation, Cursor>): seq<ControlNode>
    requires forall f :: f in fs ==> f.node.animation in cs
  {
    if fs == [] then []
    else
      assert forall f :: f in fs[1..] ==> f in fs;
      (if cs[fs[0].node.animation].loop then [fs[0].node] else []) + LoopingNodes(fs[1..], cs)
  }

  /** Only the loop flags matter to LoopingNodes. */
  lemma {:induction false} LoopingNodesOfFlags(fs: seq<Frame>, cs: map<FrameAnimation, Cursor>, cs': map<FrameAnimation, Cursor>)
    requires forall f :: f in fs ==> f.node.animation in cs && f.node.animation in cs'
    requires forall a :: a in cs && a in cs' ==> cs[a].loop == cs'[a].loop
    ensures LoopingNodes(fs, cs) == LoopingNodes(fs, cs')
    decreases |fs|
  {
    if fs != [] {
      assert forall f :: f in fs[1..] ==> f in fs;
      LoopingNodesOfFlags(fs[1..], cs, cs');
    }
  }

  /** LoopingNodes of a schedule with one more frame in front. */
  lemma LoopingNodesCons(f: Frame, fs: seq<Frame>, cs: map<FrameAnimation, Cursor>)
    requires f.node.animation in cs && forall g :: g in fs ==> g.node.animation in cs
    ensures forall g :: g in [f] + fs ==> g.node.animation in cs
    ensures LoopingNodes([f] + fs, cs) == (if cs[f.node.animation].loop then [f.node] else []) + LoopingNodes(fs, cs)
  {
    assert ([f] + fs)[0] == f && ([f] + fs)[1..] == fs;
  }

  /** A pass that raises nothing drops no frame of a looping cursor: the
      looping registrations are all still scheduled, in the same order. */
  lemma {:induction false} AdvanceAllKeepsLooping(fs: seq<Frame>, cs: map<FrameAnimation, Cursor>, ds: map<FrameAnimation, seq<int>>, rule: StepRule)
    requires Covers(fs, cs, ds)
    ensures var r := AdvanceAll(fs, cs, ds, rule);
      r.fault.None? ==>
        (forall f :: f in r.kept ==> f.node.animation in cs)
        && LoopingNodes(r.kept, cs) == LoopingNodes(fs, cs)
    decreases |fs|
  {
    if fs != [] {
      var a := fs[0].node.animation;
      var s := Advance(fs[0], cs[a], ds[a], rule);
      var cs' := cs[a := s.cursor];
      if s.fault.None? {
        CoversNext(fs, cs, ds, s.cursor);
        var rest := AdvanceAll(fs[1..], cs', ds, rule);
        AdvanceAllKeepsLooping(fs[1..], cs', ds, rule);
        if rest.fault.None? {
          LoopingNodesOfFlags(rest.kept, cs', cs);
          LoopingNodesOfFlags(fs[1..], cs', cs);
          assert [fs[0]] + fs[1..] == fs;
          LoopingNodesCons(fs[0], fs[1..], cs);
          if Finished(s.cursor) {
            assert AdvanceAll(fs, cs, ds, rule).kept == rest.kept;
          } else {
            assert AdvanceAll(fs, cs, ds, rule).kept == [s.frame] + rest.kept;
            LoopingNodesCons(s.frame, rest.kept, cs);
          }
        }
      }
    }
  }

  /** Whether any frame of fs schedules the cursor a. */
  predicate Schedules(fs: seq<Frame>, a: FrameAnimation)
  {
    exists f :: f in fs && f.node.animation == a
  }

  /** A cursor that fs does not schedule keeps its state through the pass. */
  lemma {:induction false} AdvanceAllLeavesOthers(fs: seq<Frame>, cs: map<FrameAnimation, Cursor>, ds: map<FrameAnimation, seq<int>>, a: FrameAnimation, rule: StepRule)
    requires Covers(fs, cs, ds) && a in cs && !Schedules(fs, a)
    ensures a in AdvanceAll(fs, cs, ds, rule).cursors && AdvanceAll(fs, cs, ds, rule).cursors[a] == cs[a]
    ensures !Schedules(AdvanceAll(fs, cs, ds, rule).kept, a)
    decreases |fs|
  {
    var r := AdvanceAll(fs, cs, ds, rule);
    if fs != [] {
      var b := fs[0].node.animation;
      var s := Advance(fs[0], cs[b], ds[b], rule);
      var cs' := cs[b := s.cursor];
      assert fs[0] in fs;
      CoversNext(fs, cs, ds, s.cursor);
      if s.fault.None? {
        AdvanceAllLeavesOthers(fs[1..], cs', ds, a, rule);
      }
      AdvanceAllKeepsOrder(fs, cs, ds, rule);
      EmbedsMembers(Nodes(r.kept), Nodes(fs));
    }
  }

  /** A cursor that does not loop, stands on its last key frame and is
      scheduled by one played frame: the pass shows that key frame's turn
      once more and then drops the frame, so the cursor is no longer
      scheduled. */
  lemma {:induction false} LastKeyFrameLeaves(fs: seq<Frame>, cs: map<FrameAnimation, Cursor>, ds: map<FrameAnimation, seq<int>>, k: nat, rule: StepRule)
    requires Covers(fs, cs, ds) && k < |fs|
    requires var a := fs[k].node.animation;
      fs[k].played && !cs[a].loop && cs[a].index == FrameCount(cs[a]) - 1
      && forall j :: 0 <= j < |fs| && j != k ==> fs[j].node.animation != a
    ensures AdvanceAll(fs, cs, ds, rule).fault.None? ==> !Schedules(AdvanceAll(fs, cs, ds, rule).kept, fs[k].node.animation)
    decreases |fs|
  {
    var a := fs[k].node.animation;
    var b := fs[0].node.animation;
    assert fs[0] in fs;
    var s := Advance(fs[0], cs[b], ds[b], rule);
    var cs' := cs[b := s.cursor];
    CoversNext(fs, cs, ds, s.cursor);
    if s.fault.None? {
      var rest := AdvanceAll(fs[1..], cs', ds, rule);
      if k == 0 {
        NextStops(cs[a]);
        assert Finished(s.cursor);
        AdvanceAllLeavesOthers(fs[1..], cs', ds, a, rule);
      } else {
        assert cs'[a] == cs[a];
        assert fs[1..][k - 1] == fs[k];
        LastKeyFrameLeaves(fs[1..], cs', ds, k - 1, rule);
      }
    }
  }

  // ---------------------------------------------------------------------
  // The sleep and the rebase.

  /** The smallest delay of the schedule (None when it is empty: the
      source's Double.MaxValue sentinel). */
  function MinDelay(fs: seq<Frame>): (m: Option<int>)
    ensures m.None? <==> fs == []
    ensures m.Some? ==> (exists i :: 0 <= i < |fs| && fs[i].delay == m.value)
    ensures m.Some? ==> forall i :: 0 <= i < |fs| ==> m.value <= fs[i].delay
  {
    if fs == [] then None
    else
      var m := MinDelay(fs[1..]);
      if m.None? || fs[0].delay < m.value then
        Some(fs[0].delay)
      else
        assert forall i :: 1 <= i < |fs| ==> fs[i] == fs[1..][i - 1];
        var i :| 0 <= i < |fs[1..]| && fs[1..][i].delay == m.value;
        assert fs[i + 1].delay == m.value;
        m
  }

  /** The search for the smallest delay. */
  method FindMinDelay(frames: seq<Frame>) returns (delay: Option<int>)
    ensures delay == MinDelay(frames)
  {
    delay := None;
    var i := |frames|;
    while i > 0
      invariant 0 <= i <= |frames|
      invariant delay == MinDelay(frames[i..])
    {
      i := i - 1;
      assert frames[i..][1..] == frames[i + 1..];
      if delay.None? || delay.value > frames[i].delay {
        delay := Some(frames[i].delay);
      }
    }
  }

  /** The schedule with every delay reduced by t. */
  function Shift(fs: seq<Frame>, t: int): (r: seq<Frame>)
    ensures |r| == |fs| && Nodes(r) == Nodes(fs)
    ensures forall i :: 0 <= i < |fs| ==>
      r[i].node == fs[i].node && r[i].played == fs[i].played && r[i].delay == fs[i].delay - t
  {
    seq(|fs|, i requires 0 <= i < |fs| => fs[i].(delay := fs[i].delay - t))
  }

  /** Shifting keeps the gaps between due times. */
  lemma ShiftKeepsGaps(fs: seq<Frame>, t: int)
    ensures forall i, j :: 0 <= i < |fs| && 0 <= j < |fs| ==>
      Shift(fs, t)[i].delay - Shift(fs, t)[j].delay == fs[i].delay - fs[j].delay
  {
  }

  /** Shifting by the smallest delay leaves no delay negative and one of
      them 0: after a cycle, the next frame is due exactly when the sleep
      ends. */
  lemma ShiftByMinSettles(fs: seq<Frame>)
    requires fs != []
    ensures forall i :: 0 <= i < |fs| ==> Shift(fs, MinDelay(fs).value)[i].delay >= 0
    ensures exists i :: 0 <= i < |fs| && Shift(fs, MinDelay(fs).value)[i].delay == 0
  {
    var m := MinDelay(fs).value;
    var i :| 0 <= i < |fs| && fs[i].delay == m;
    assert Shift(fs, m)[i].delay == 0;
  }

  // ---------------------------------------------------------------------
  // One cycle.

  /** The outcome of one cycle: the schedule, the cursors, the handler calls
      made, the time to sleep and the error that ended the cycle. */
  datatype CycleResult = CycleResult(
    frames: seq<Frame>,
    cursors: map<FrameAnimation, Cursor>,
    dispatched: seq<Dispatch>,
    sleep: int,
    fault: Option<Fault>)

  /** One cycle of the worker on the schedule fs: dispatch, advance, find the
      smallest delay, sleep that long (0 for an empty schedule) and take it
      off every delay. An error ends the cycle after the pass. */
  function Cycle(fs: seq<Frame>, cs: map<FrameAnimation, Cursor>, ds: map<FrameAnimation, seq<int>>, rule: StepRule): (r: CycleResult)
    requires Covers(fs, cs, ds)
    ensures r.dispatched == Dispatches(fs)
  {
    var marked := MarkDue(fs);
    MarkDueCovers(fs, cs, ds);
    var p := AdvanceAll(marked, cs, ds, rule);
    if p.fault.Some? then CycleResult(p.kept, p.cursors, Dispatches(fs), 0, p.fault)
    else
      match MinDelay(p.kept)
      case None => CycleResult(p.kept, p.cursors, Dispatches(fs), 0, None)
      case Some(m) => CycleResult(Shift(p.kept, m), p.cursors, Dispatches(fs), m, None)
  }

  /** Both schedules schedule the same registrations, in order. */
  lemma SameNodesSameAnimations(fs: seq<Frame>, gs: seq<Frame>)
    requires Nodes(fs) == Nodes(gs)
    ensures Animations(fs) == Animations(gs)
    ensures forall a :: Schedules(fs, a) <==> Schedules(gs, a)
  {
    forall f | f in fs
      ensures exists g :: g in gs && g.node == f.node
    {
      var i :| 0 <= i < |fs| && fs[i] == f;
      assert Nodes(gs)[i] == gs[i].node;
    }
    forall g | g in gs
      ensures exists f :: f in fs && f.node == g.node
    {
      var i :| 0 <= i < |gs| && gs[i] == g;
      assert Nodes(fs)[i] == fs[i].node;
    }
  }

  /** LoopingNodes only looks at the registrations. */
  lemma {:induction false} LoopingNodesOfNodes(fs: seq<Frame>, gs: seq<Frame>, cs: map<FrameAnimation, Cursor>)
    requires Nodes(fs) == Nodes(gs)
    requires forall f :: f in fs ==> f.node.animation in cs
    ensures forall g :: g in gs ==> g.node.animation in cs
    ensures LoopingNodes(fs, cs) == LoopingNodes(gs, cs)
    decreases |fs|
  {
    SameNodesSameAnimations(fs, gs);
    if fs != [] {
      assert Nodes(fs[1..]) == Nodes(fs)[1..] == Nodes(gs)[1..] == Nodes(gs[1..]);
      assert forall f :: f in fs[1..] ==> f in fs;
      LoopingNodesOfNodes(fs[1..], gs[1..], cs);
      assert fs[0].node == Nodes(fs)[0] == gs[0].node;
    }
  }

  /** A cycle that raises nothing leaves every delay of the schedule at 0 or
      more and at least one at 0, and sleeps for the smallest delay the pass
      left; an empty schedule sleeps 0. */
  lemma CycleSettles(fs: seq<Frame>, cs: map<FrameAnimation, Cursor>, ds: map<FrameAnimation, seq<int>>, rule: StepRule)
    requires Covers(fs, cs, ds)
    ensures var r := Cycle(fs, cs, ds, rule);
      r.fault.None? && r.frames != [] ==>
        (forall i :: 0 <= i < |r.frames| ==> r.frames[i].delay >= 0)
        && (exists i :: 0 <= i < |r.frames| && r.frames[i].delay == 0)
    ensures var r := Cycle(fs, cs, ds, rule); r.fault.None? && r.frames == [] ==> r.sleep == 0
  {
    var marked := MarkDue(fs);
    MarkDueCovers(fs, cs, ds);
    var p := AdvanceAll(marked, cs, ds, rule);
    if p.fault.None? && p.kept != [] {
      ShiftByMinSettles(p.kept);
      var r := Shift(p.kept, MinDelay(p.kept).value);
      var i :| 0 <= i < |p.kept| && r[i].delay == 0;
      assert Cycle(fs, cs, ds, rule).frames[i].delay == 0;
    }
  }

  /** A cycle keeps the order of the schedule, and one that raises nothing
      drops no registration of a looping cursor. */
  lemma CycleKeepsOrderAndLooping(fs: seq<Frame>, cs: map<FrameAnimation, Cursor>, ds: map<FrameAnimation, seq<int>>, rule: StepRule)
    requires Covers(fs, cs, ds)
    ensures Embeds(Nodes(Cycle(fs, cs, ds, rule).frames), Nodes(fs))
    ensures Cycle(fs, cs, ds, rule).fault.None? ==>
      (forall f :: f in Cycle(fs, cs, ds, rule).frames ==> f.node.animation in cs)
      && LoopingNodes(Cycle(fs, cs, ds, rule).frames, cs) == LoopingNodes(fs, cs)
  {
    var marked := MarkDue(fs);
    MarkDueCovers(fs, cs, ds);
    var p := AdvanceAll(marked, cs, ds, rule);
    AdvanceAllKeepsOrder(marked, cs, ds, rule);
    AdvanceAllKeepsLooping(marked, cs, ds, rule);
    LoopingNodesOfNodes(fs, marked, cs);
    var r := Cycle(fs, cs, ds, rule);
    assert Nodes(r.frames) == Nodes(p.kept);
    if r.fault.None? {
      LoopingNodesOfNodes(p.kept, r.frames, cs);
    }
  }

  /** A cursor that does not loop, stands on its last key frame and is
      scheduled by one due frame is dispatched by the cycle and, unless the
      cycle raises an error, is no longer scheduled afterwards: its last key
      frame is shown once. */
  lemma LastKeyFrameShownOnce(fs: seq<Frame>, cs: map<FrameAnimation, Cursor>, ds: map<FrameAnimation, seq<int>>, k: nat, rule: StepRule)
    requires Covers(fs, cs, ds) && k < |fs|
    requires var a := fs[k].node.animation;
      Due(fs[k]) && !cs[a].loop && cs[a].index == FrameCount(cs[a]) - 1
      && forall j :: 0 <= j < |fs| && j != k ==> fs[j].node.animation != a
    ensures Dispatch(fs[k].node.handler, fs[k].node.animation) in Cycle(fs, cs, ds, rule).dispatched
    ensures Cycle(fs, cs, ds, rule).fault.None? ==> !Schedules(Cycle(fs, cs, ds, rule).frames, fs[k].node.animation)
  {
    DispatchesAreDueFrames(fs, Dispatch(fs[k].node.handler, fs[k].node.animation));
    var marked := MarkDue(fs);
    MarkDueCovers(fs, cs, ds);
    assert forall j :: 0 <= j < |fs| ==> marked[j].node == fs[j].node;
    LastKeyFrameLeaves(marked, cs, ds, k, rule);
    var p := AdvanceAll(marked, cs, ds, rule);
    SameNodesSameAnimations(p.kept, Cycle(fs, cs, ds, rule).frames);
  }

  /** A new registration is due at once: the next cycle dispatches it. */
  lemma NewFrameIsDispatched(fs: seq<Frame>, node: ControlNode)
    ensures Dispatch(node.handler, node.animation) in Dispatches(fs + [Frame(node, 0, false)])
  {
    var gs := fs + [Frame(node, 0, false)];
    DispatchesAreDueFrames(gs, Dispatch(node.handler, node.animation));
    assert Due(gs[|fs|]);
  }

  /** The finding on a fresh single-key-frame animation: its first frame is
      due at once, the cursor stands on its last (only) key frame and has no
      current key frame, so the worker's cycle dispatches the frame and then
      raises a null-reference error, leaving the frame played and the cursor
      where it was; the corrected cycle dispatches it, keeps it only when it
      loops, and sleeps for the key frame's delay. */
  lemma SingleKeyFrameFaults(node: ControlNode, d: int, loop: bool)
    ensures var r := Cycle([Frame(node, 0, false)], map[node.animation := Cursor(Some(1), 0, None, loop)],
                           map[node.animation := [d]], AsWritten);
      && r.fault == Some(NullReference)
      && r.dispatched == [Dispatch(node.handler, node.animation)]
      && r.frames == [Frame(node, 0, true)]
      && r.cursors == map[node.animation := Cursor(Some(1), 0, None, loop)]
    ensures var r := Cycle([Frame(node, 0, false)], map[node.animation := Cursor(Some(1), 0, None, loop)],
                           map[node.animation := [d]], Corrected);
      && r.fault.None?
      && r.dispatched == [Dispatch(node.handler, node.animation)]
      && r.frames == (if loop then [Frame(node, 0, false)] else [])
      && r.sleep == (if loop then d else 0)
  {
    var fs := [Frame(node, 0, false)];
    var cs := map[node.animation := Cursor(Some(1), 0, None, loop)];
    var ds := map[node.animation := [d]];
    assert MarkDue(fs) == [Frame(node, 0, true)];
    assert Dispatches(fs) == [Dispatch(node.handler, node.animation)];
    var marked := MarkDue(fs);
    assert marked[0] == Frame(node, 0, true) && marked[1..] == [];
    var w := Advance(marked[0], cs[node.animation], ds[node.animation], AsWritten);
    assert w == Advanced(cs[node.animation], marked[0], Some(NullReference));
    assert cs[node.animation := w.cursor] == cs;
    assert AdvanceAll(marked, cs, ds, AsWritten) == Pass(marked, cs, Some(NullReference));
    var s := Advance(marked[0], cs[node.animation], ds[node.animation], Corrected);
    if loop {
      NextWraps(cs[node.animation]);
    } else {
      NextStops(cs[node.animation]);
    }
    assert s.frame == Frame(node, d, false) && s.fault.None?;
    assert loop <==> !Finished(s.cursor);
    var cs' := cs[node.animation := s.cursor];
    assert AdvanceAll(marked[1..], cs', ds, Corrected) == Pass([], cs', None);
    var p := AdvanceAll(marked, cs, ds, Corrected);
    if loop {
      assert p.kept == [Frame(node, d, false)];
      assert MinDelay(p.kept) == Some(d);
      assert Shift(p.kept, d) == [Frame(node, 0, false)];
    } else {
      assert p.kept == [];
    }
  }

  /** Every cursor of cs is in sync. */
  predicate AllSynced(cs: map<FrameAnimation, Cursor>)
  {
    forall a :: a in cs ==> Synced(cs[a])
  }

  /** While every cursor is in sync, the pass with the step as written is
      the pass with the corrected step. */
  lemma {:induction false} AdvanceAllAgrees(fs: seq<Frame>, cs: map<FrameAnimation, Cursor>, ds: map<FrameAnimation, seq<int>>)
    requires Covers(fs, cs, ds) && AllSynced(cs)
    ensures AdvanceAll(fs, cs, ds, AsWritten) == AdvanceAll(fs, cs, ds, Corrected)
    decreases |fs|
  {
    if fs != [] {
      var a := fs[0].node.animation;
      assert fs[0] in fs;
      SyncedStep(fs[0], cs[a], ds[a]);
      var s := AdvanceFrame(fs[0], cs[a], ds[a]);
      if s.fault.None? {
        CoversNext(fs, cs, ds, s.cursor);
        AdvanceAllAgrees(fs[1..], cs[a := s.cursor], ds);
      }
    }
  }

  /** While every cursor is in sync, the worker's cycle is the corrected
      cycle: the two differ only on a cursor that is not. */
  lemma CycleAgrees(fs: seq<Frame>, cs: map<FrameAnimation, Cursor>, ds: map<FrameAnimation, seq<int>>)
    requires Covers(fs, cs, ds) && AllSynced(cs)
    ensures Cycle(fs, cs, ds, AsWritten) == Cycle(fs, cs, ds, Corrected)
  {
    MarkDueCovers(fs, cs, ds);
    AdvanceAllAgrees(MarkDue(fs), cs, ds);
  }

  // ---------------------------------------------------------------------
  // Unregistering.

  /** The registrations of ns that are not of cursor a, in order. */
  function NodesWithout(ns: seq<ControlNode>, a: FrameAnimation): seq<ControlNode>
  {
    if ns == [] then []
    else (if ns[0].animation == a then [] else [ns[0]]) + NodesWithout(ns[1..], a)
  }

  /** The frames of fs that do not schedule cursor a, in order. */
  function FramesWithout(fs: seq<Frame>, a: FrameAnimation): seq<Frame>
  {
    if fs == [] then []
    else (if fs[0].node.animation == a then [] else [fs[0]]) + FramesWithout(fs[1..], a)
  }

  /** FramesWithout from position i, unfolded once. */
  lemma FramesWithoutFrom(fs: seq<Frame>, i: int, a: FrameAnimation)
    requires 0 <= i < |fs|
    ensures FramesWithout(fs[i..], a) == (if fs[i].node.animation == a then [] else [fs[i]]) + FramesWithout(fs[i + 1..], a)
  {
    assert fs[i..][0] == fs[i] && fs[i..][1..] == fs[i + 1..];
  }

  /** Unregistering removes exactly the registrations of the cursor. */
  lemma {:induction false} NodesWithoutRemovesExactly(ns: seq<ControlNode>, a: FrameAnimation)
    ensures forall n :: n in NodesWithout(ns, a) ==> n in ns && n.animation != a
    ensures forall n :: n in ns && n.animation != a ==> n in NodesWithout(ns, a)
    decreases |ns|
  {
    if ns != [] {
      NodesWithoutRemovesExactly(ns[1..], a);
      assert forall n :: n in ns ==> n == ns[0] || n in ns[1..];
    }
  }

  /** Unscheduling removes exactly the frames of the cursor. */
  lemma {:induction false} FramesWithoutRemovesExactly(fs: seq<Frame>, a: FrameAnimation)
    ensures forall f :: f in FramesWithout(fs, a) ==> f in fs && f.node.animation != a
    ensures forall f :: f in fs && f.node.animation != a ==> f in FramesWithout(fs, a)
    decreases |fs|
  {
    if fs != [] {
      FramesWithoutRemovesExactly(fs[1..], a);
      assert forall f :: f in fs ==> f == fs[0] || f in fs[1..];
    }
  }

  /** Unregistering keeps the order of the registrations that stay. */
  lemma {:induction false} NodesWithoutKeepsOrder(ns: seq<ControlNode>, a: FrameAnimation)
    ensures Embeds(NodesWithout(ns, a), ns)
    decreases |ns|
  {
    if ns != [] {
      NodesWithoutKeepsOrder(ns[1..], a);
      var r := NodesWithout(ns, a);
      if ns[0].animation == a {
        assert r == NodesWithout(ns[1..], a);
        assert r == [] || Embeds(r, ns[1..]);
      } else {
        assert r == [ns[0]] + NodesWithout(ns[1..], a);
        assert r[0] == ns[0] && r[1..] == NodesWithout(ns[1..], a);
      }
    }
  }

  /** Unregistering keeps the order of the frames that stay. */
  lemma {:induction false} FramesWithoutKeepsOrder(fs: seq<Frame>, a: FrameAnimation)
    ensures Embeds(FramesWithout(fs, a), fs)
    decreases |fs|
  {
    if fs != [] {
      FramesWithoutKeepsOrder(fs[1..], a);
      var r := FramesWithout(fs, a);
      if fs[0].node.animation == a {
        assert r == FramesWithout(fs[1..], a);
        assert r == [] || Embeds(r, fs[1..]);
      } else {
        assert r == [fs[0]] + FramesWithout(fs[1..], a);
        assert r[0] == fs[0] && r[1..] == FramesWithout(fs[1..], a);
      }
    }
  }

  /** The walk of RemoveAnimation over the schedule: the frames of cursor a
      are unlinked as they are met, the others are stepped over. */
  method Unschedule(frames: seq<Frame>, a: FrameAnimation) returns (list: seq<Frame>)
    ensures list == FramesWithout(frames, a)
  {
    list := frames;
    var i := 0;
    while i < |list|
      invariant 0 <= i <= |list|
      invariant list[..i] + FramesWithout(list[i..], a) == FramesWithout(frames, a)
      decreases |list| - i
    {
      ghost var before := list;
      FramesWithoutFrom(list, i, a);
      if list[i].node.animation == a {
        list := list[..i] + list[i + 1..];
        RemoveSlices(before, i);
      } else {
        AppendAssoc(before[..i], [before[i]], FramesWithout(before[i + 1..], a));
        assert before[..i + 1] == before[..i] + [before[i]];
        i := i + 1;
      }
    }
    assert list[i..] == [] && list[..i] == list;
  }

  /** What the advance pass has left to do: the frames before i are kept. */
  function Prepend(kept: seq<Frame>, p: Pass): Pass
  {
    Pass(kept + p.kept, p.cursors, p.fault)
  }

  /** A scheduled cursor: consistent, with a source that has key frames. */
  ghost predicate Playable(a: FrameAnimation)
    reads a
  {
    a.Valid() && a.AnimationSource != null && a.FrameCount() > 0
  }

  /** The key frames of the sources of the given cursors. */
  function SourceKeyFrames(cursors: set<FrameAnimation>): (ks: set<KeyFrame>)
    ensures forall a, i :: a in cursors && a.AnimationSource != null && 0 <= i < |a.AnimationSource.KeyFrames| ==>
      a.AnimationSource.KeyFrames[i] in ks
  {
    set a, i | a in cursors && a.AnimationSource != null && 0 <= i < |a.AnimationSource.KeyFrames| :: a.AnimationSource.KeyFrames[i]
  }

  /** The key-frame delays of a cursor's source (none without a source). */
  function SourceDelays(a: FrameAnimation): seq<int>
    reads SourceKeyFrames({a})
  {
    if a.AnimationSource == null then [] else a.AnimationSource.Delays()
  }

  /** Every cursor state of cs is consistent with its source's delays. */
  ghost predicate Coherent(cs: map<FrameAnimation, Cursor>, ds: map<FrameAnimation, seq<int>>)
  {
    forall a :: a in cs ==> a in ds && Consistent(cs[a], ds[a]) && |ds[a]| > 0
  }

  /** A consistent new state for one cursor keeps the cursors coherent. */
  lemma CoherentUpdate(cs: map<FrameAnimation, Cursor>, ds: map<FrameAnimation, seq<int>>, a: FrameAnimation, c: Cursor)
    requires Coherent(cs, ds) && a in cs && Consistent(c, ds[a])
    ensures Coherent(cs[a := c], ds)
  {
  }

  /** The state of the advance pass over orig, started with cursor states
      cs0, once list[..i] is done: the cursors are now in states cs, and
      what remains of the pass completes it. */
  ghost predicate PassFrom(orig: seq<Frame>, cs0: map<FrameAnimation, Cursor>, ds: map<FrameAnimation, seq<int>>,
                           list: seq<Frame>, i: int, cs: map<FrameAnimation, Cursor>)
  {
    0 <= i <= |list| && cs.Keys == cs0.Keys && Coherent(cs, ds)
    && Covers(orig, cs0, ds) && Covers(list[i..], cs, ds)
    && Prepend(list[..i], AdvanceAll(list[i..], cs, ds, AsWritten)) == AdvanceAll(orig, cs0, ds, AsWritten)
  }

  /** Before its first turn, the pass has all of orig before it. */
  lemma PassFromStart(orig: seq<Frame>, cs0: map<FrameAnimation, Cursor>, ds: map<FrameAnimation, seq<int>>)
    requires Covers(orig, cs0, ds) && Coherent(cs0, ds)
    ensures PassFrom(orig, cs0, ds, orig, 0, cs0)
  {
    assert orig[..0] == [] && orig[0..] == orig;
  }

  /** A pass that has reached the end of the list without error has kept
      exactly the list. */
  lemma PassFromEnd(orig: seq<Frame>, cs0: map<FrameAnimation, Cursor>, ds: map<FrameAnimation, seq<int>>,
                    list: seq<Frame>, i: int, cs: map<FrameAnimation, Cursor>)
    requires PassFrom(orig, cs0, ds, list, i, cs) && i == |list|
    ensures Pass(list, cs, None) == AdvanceAll(orig, cs0, ds, AsWritten)
  {
    assert list[i..] == [] && list[..i] + [] == list;
  }

  /** Every cursor of cs is playable and in the state cs gives it. */
  ghost predicate Tracks(cs: map<FrameAnimation, Cursor>)
    reads cs.Keys
  {
    forall a :: a in cs ==> Playable(a) && a.View() == cs[a]
  }

  /** The pass from position i, unfolded once: s is the outcome of advancing
      list[i]. */
  lemma PassUnfolds(list: seq<Frame>, i: int, cs: map<FrameAnimation, Cursor>, ds: map<FrameAnimation, seq<int>>, s: Advanced)
    requires 0 <= i < |list| && Covers(list[i..], cs, ds)
    requires list[i].node.animation in cs && list[i].node.animation in ds
    requires s == AdvanceFrame(list[i], cs[list[i].node.animation], ds[list[i].node.animation])
    ensures Covers(list[i + 1..], cs[list[i].node.animation := s.cursor], ds)
    ensures s.fault.Some? ==>
      AdvanceAll(list[i..], cs, ds, AsWritten) == Pass([s.frame] + list[i + 1..], cs[list[i].node.animation := s.cursor], s.fault)
    ensures s.fault.None? ==>
      AdvanceAll(list[i..], cs, ds, AsWritten)
        == Prepend(if Finished(s.cursor) then [] else [s.frame], AdvanceAll(list[i + 1..], cs[list[i].node.animation := s.cursor], ds, AsWritten))
  {
    assert list[i..][0] == list[i] && list[i..][1..] == list[i + 1..];
    assert forall f :: f in list[i + 1..] ==> f in list[i..];
  }

  /** A turn that raises an error ends the pass, with the frame updated in
      place. */
  lemma PassFromFault(orig: seq<Frame>, cs0: map<FrameAnimation, Cursor>, ds: map<FrameAnimation, seq<int>>,
                      list: seq<Frame>, i: int, cs: map<FrameAnimation, Cursor>, s: Advanced)
    requires PassFrom(orig, cs0, ds, list, i, cs) && i < |list|
    requires list[i].node.animation in cs && list[i].node.animation in ds
    requires s == AdvanceFrame(list[i], cs[list[i].node.animation], ds[list[i].node.animation])
    requires s.fault.Some?
    ensures Pass(list[i := s.frame], cs[list[i].node.animation := s.cursor], s.fault) == AdvanceAll(orig, cs0, ds, AsWritten)
  {
    PassUnfolds(list, i, cs, ds, s);
    assert list[i := s.frame] == list[..i] + ([s.frame] + list[i + 1..]);
  }

  /** Slices of a sequence with element i replaced by y. */
  lemma UpdateSlices<T>(xs: seq<T>, i: int, y: T)
    requires 0 <= i < |xs|
    ensures xs[i := y][..i + 1] == xs[..i] + [y] && xs[i := y][i + 1..] == xs[i + 1..]
  {
  }

  /** Slices of a sequence with element i removed. */
  lemma RemoveSlices<T>(xs: seq<T>, i: int)
    requires 0 <= i < |xs|
    ensures (xs[..i] + xs[i + 1..])[..i] == xs[..i] && (xs[..i] + xs[i + 1..])[i..] == xs[i + 1..]
  {
  }

  lemma AppendAssoc<T>(xs: seq<T>, ys: seq<T>, zs: seq<T>)
    ensures xs + (ys + zs) == (xs + ys) + zs
  {
  }

  /** A turn that finishes a non-looping cursor unlinks its frame: the pass
      from i, with the cursors now in states cs', goes on over the rest. */
  lemma PassFromDrop(orig: seq<Frame>, cs0: map<FrameAnimation, Cursor>, ds: map<FrameAnimation, seq<int>>,
                     list: seq<Frame>, i: int, cs: map<FrameAnimation, Cursor>, cs': map<FrameAnimation, Cursor>)
    requires PassFrom(orig, cs0, ds, list, i, cs) && i < |list|
    requires cs'.Keys == cs.Keys && Coherent(cs', ds) && Covers(list[i + 1..], cs', ds)
    requires AdvanceAll(list[i..], cs, ds, AsWritten) == Prepend([], AdvanceAll(list[i + 1..], cs', ds, AsWritten))
    ensures PassFrom(orig, cs0, ds, list[..i] + list[i + 1..], i, cs')
  {
    RemoveSlices(list, i);
    AppendAssoc(list[..i], [], AdvanceAll(list[i + 1..], cs', ds, AsWritten).kept);
    assert list[..i] + [] == list[..i];
  }

  /** Any other turn updates the frame in place, to y, and moves on. */
  lemma PassFromKeep(orig: seq<Frame>, cs0: map<FrameAnimation, Cursor>, ds: map<FrameAnimation, seq<int>>,
                     list: seq<Frame>, i: int, cs: map<FrameAnimation, Cursor>, cs': map<FrameAnimation, Cursor>, y: Frame)
    requires PassFrom(orig, cs0, ds, list, i, cs) && i < |list|
    requires cs'.Keys == cs.Keys && Coherent(cs', ds) && Covers(list[i + 1..], cs', ds)
    requires AdvanceAll(list[i..], cs, ds, AsWritten) == Prepend([y], AdvanceAll(list[i + 1..], cs', ds, AsWritten))
    ensures PassFrom(orig, cs0, ds, list[i := y], i + 1, cs')
  {
    UpdateSlices(list, i, y);
    AppendAssoc(list[..i], [y], AdvanceAll(list[i + 1..], cs', ds, AsWritten).kept);
  }

  /** A turn that raises nothing, with s the outcome of advancing list[i]:
      a finished cursor's frame is unlinked, any other frame is updated in
      place and the pass moves past it. */
  lemma PassFromTurn(orig: seq<Frame>, cs0: map<FrameAnimation, Cursor>, ds: map<FrameAnimation, seq<int>>,
                     list: seq<Frame>, i: int, cs: map<FrameAnimation, Cursor>, s: Advanced)
    requires PassFrom(orig, cs0, ds, list, i, cs) && i < |list|
    requires list[i].node.animation in cs && list[i].node.animation in ds
    requires s == AdvanceFrame(list[i], cs[list[i].node.animation], ds[list[i].node.animation])
    requires s.fault.None?
    ensures Finished(s.cursor) ==>
      PassFrom(orig, cs0, ds, list[..i] + list[i + 1..], i, cs[list[i].node.animation := s.cursor])
    ensures !Finished(s.cursor) ==>
      PassFrom(orig, cs0, ds, list[i := s.frame], i + 1, cs[list[i].node.animation := s.cursor])
  {
    var a := list[i].node.animation;
    PassUnfolds(list, i, cs, ds, s);
    CoherentUpdate(cs, ds, a, s.cursor);
    if Finished(s.cursor) {
      PassFromDrop(orig, cs0, ds, list, i, cs, cs[a := s.cursor]);
    } else {
      PassFromKeep(orig, cs0, ds, list, i, cs, cs[a := s.cursor], s.frame);
    }
  }

  /** One frame of the walk: a played frame takes the delay of the key
      frame it reads and moves its cursor on, in the order AdvanceFrame
      says; reading the current key frame of a cursor that has none raises
      a null-reference error. */
  method StepCursor(f: Frame, ghost c: Cursor, ghost ds: seq<int>) returns (frame: Frame, fault: Option<Fault>)
    requires Playable(f.node.animation) && f.node.animation.View() == c
    requires Consistent(c, ds) && |ds| > 0
    requires f.node.animation.AnimationSource.Delays() == ds
    modifies f.node.animation
    ensures Playable(f.node.animation)
    ensures var s := AdvanceFrame(f, c, ds);
      f.node.animation.View() == s.cursor && frame == s.frame && fault == s.fault
  {
    var a := f.node.animation;
    frame := f;
    fault := None;
    if frame.played {
      if a.currentFrameIndex == a.FrameCount() - 1 {
        if a.currentFrame == null {
          fault := Some(NullReference);
        } else {
          assert a.currentFrame.Delay == ds[a.currentPosition.value];
          frame := frame.(delay := a.currentFrame.Delay);
          fault := a.NextFrame();
          frame := frame.(played := false);
        }
      } else {
        fault := a.NextFrame();
        if fault.None? {
          if a.currentFrame == null {
            fault := Some(NullReference);
          } else {
            assert a.currentFrame.Delay == ds[a.currentPosition.value];
            frame := frame.(delay := a.currentFrame.Delay, played := false);
          }
        }
      }
    }
  }

  /** One turn of the advance pass, on list[i]: advance its cursor if the
      frame was played, then unlink the frame if its cursor is finished. The
      frame is updated in place; on an error the pass ends. */
  method AdvanceStep(ghost orig: seq<Frame>, ghost cs0: map<FrameAnimation, Cursor>, ghost ds: map<FrameAnimation, seq<int>>,
                     list: seq<Frame>, i: int, ghost cs: map<FrameAnimation, Cursor>)
    returns (list': seq<Frame>, i': int, fault: Option<Fault>, ghost cs': map<FrameAnimation, Cursor>)
    requires PassFrom(orig, cs0, ds, list, i, cs) && Tracks(cs) && i < |list|
    requires forall b :: b in ds ==> b.AnimationSource != null && b.AnimationSource.Delays() == ds[b]
    modifies list[i].node.animation
    ensures Tracks(cs')
    ensures forall b :: b in ds ==> b.AnimationSource != null && b.AnimationSource.Delays() == ds[b]
    ensures fault.None? ==> PassFrom(orig, cs0, ds, list', i', cs') && |list'| - i' < |list| - i
    ensures fault.Some? ==> Pass(list', cs', fault) == AdvanceAll(orig, cs0, ds, AsWritten)
  {
    var frame := list[i];
    var a := frame.node.animation;
    assert frame in list[i..];
    ghost var s := AdvanceFrame(frame, cs[a], ds[a]);
    frame, fault := StepCursor(frame, cs[a], ds[a]);
    cs' := cs[a := a.View()];
    forall b | b in cs'
      ensures Playable(b) && b.View() == cs'[b]
    {
      if b != a {
        assert old(Playable(b) && b.View() == cs[b]);
      }
    }
    forall b | b in ds
      ensures b.AnimationSource != null && b.AnimationSource.Delays() == ds[b]
    {
      assert old(b.AnimationSource != null && b.AnimationSource.Delays() == ds[b]);
    }
    if fault.Some? {
      PassFromFault(orig, cs0, ds, list, i, cs, s);
      list' := list[i := frame];
      i' := i;
      return;
    }
    PassFromTurn(orig, cs0, ds, list, i, cs, s);
    if a.FrameCount() <= a.currentFrameIndex && !a.Loop {
      list' := list[..i] + list[i + 1..];
      i' := i;
    } else {
      list' := list[i := frame];
      i' := i + 1;
    }
  }

  /** The walk over the schedule after the dispatch: every played frame
      advances its cursor and waits for the delay of the key frame it reads,
      and the frames of finished cursors are unlinked. An error ends the walk
      where it was raised. The cursors start in states cs0, and ds holds the
      key-frame delays of their sources. */
  method AdvanceFrames(frames: seq<Frame>, ghost cs0: map<FrameAnimation, Cursor>, ghost ds: map<FrameAnimation, seq<int>>)
    returns (list: seq<Frame>, fault: Option<Fault>, ghost cs: map<FrameAnimation, Cursor>)
    requires Covers(frames, cs0, ds) && Coherent(cs0, ds) && Tracks(cs0)
    requires forall a :: a in ds ==> a.AnimationSource != null && a.AnimationSource.Delays() == ds[a]
    modifies cs0.Keys
    ensures Pass(list, cs, fault) == AdvanceAll(frames, cs0, ds, AsWritten)
    ensures Tracks(cs)
  {
    list := frames;
    cs := cs0;
    var i := 0;
    fault := None;
    PassFromStart(frames, cs0, ds);
    while i < |list|
      invariant PassFrom(frames, cs0, ds, list, i, cs) && Tracks(cs) && fault.None?
      invariant forall a :: a in ds ==> a.AnimationSource != null && a.AnimationSource.Delays() == ds[a]
      decreases |list| - i
    {
      list, i, fault, cs := AdvanceStep(frames, cs0, ds, list, i, cs);
      if fault.Some? {
        return;
      }
    }
    PassFromEnd(frames, cs0, ds, list, i, cs);
  }

  /** The loop that takes t off every scheduled delay, in place. */
  method ReduceDelays(frames: seq<Frame>, t: int) returns (list: seq<Frame>)
    ensures list == Shift(frames, t)
  {
    list := frames;
    var i := 0;
    while i < |list|
      invariant 0 <= i <= |list| && |list| == |frames|
      invariant forall j :: 0 <= j < i ==> list[j] == frames[j].(delay := frames[j].delay - t)
      invariant forall j :: i <= j < |list| ==> list[j] == frames[j]
    {
      list := list[i := list[i].(delay := list[i].delay - t)];
      i := i + 1;
    }
  }

  /** The cycle in terms of the outcome of its advance pass. */
  lemma CycleOfPass(fs: seq<Frame>, cs: map<FrameAnimation, Cursor>, ds: map<FrameAnimation, seq<int>>,
                    list: seq<Frame>, cs': map<FrameAnimation, Cursor>, fault: Option<Fault>)
    requires Covers(fs, cs, ds) && Covers(MarkDue(fs), cs, ds)
    requires Pass(list, cs', fault) == AdvanceAll(MarkDue(fs), cs, ds, AsWritten)
    ensures Cycle(fs, cs, ds, AsWritten).cursors == cs' && Cycle(fs, cs, ds, AsWritten).fault == fault
    ensures fault.Some? || MinDelay(list).None? ==> Cycle(fs, cs, ds, AsWritten).frames == list && Cycle(fs, cs, ds, AsWritten).sleep == 0
    ensures fault.None? && MinDelay(list).Some? ==>
      Cycle(fs, cs, ds, AsWritten).frames == Shift(list, MinDelay(list).value) && Cycle(fs, cs, ds, AsWritten).sleep == MinDelay(list).value
  {
  }

  /** Every frame the cycle keeps belongs to a registration it was given,
      and the cycle advances exactly the cursors it was given. */
  lemma CycleKeepsRegistrations(fs: seq<Frame>, cs: map<FrameAnimation, Cursor>, ds: map<FrameAnimation, seq<int>>, rule: StepRule)
    requires Covers(fs, cs, ds)
    ensures forall f :: f in Cycle(fs, cs, ds, rule).frames ==> f.node in Nodes(fs) && f.node.animation in cs
    ensures Cycle(fs, cs, ds, rule).cursors.Keys == cs.Keys
  {
    var r := Cycle(fs, cs, ds, rule);
    CycleKeepsOrderAndLooping(fs, cs, ds, rule);
    EmbedsMembers(Nodes(r.frames), Nodes(fs));
    forall f | f in r.frames
      ensures f.node in Nodes(fs) && f.node.animation in cs
    {
      var k :| 0 <= k < |r.frames| && r.frames[k] == f;
      assert Nodes(r.frames)[k] in Nodes(fs);
      var j :| 0 <= j < |fs| && Nodes(fs)[j] == f.node;
      assert fs[j] in fs;
    }
    var marked := MarkDue(fs);
    MarkDueCovers(fs, cs, ds);
    AdvanceAllCursors(marked, cs, ds, rule);
  }

  /** Registrations drawn from a schedule whose registrations are all in ns
      are in ns. */
  lemma Registered(list: seq<Frame>, fs: seq<Frame>, ns: seq<ControlNode>)
    requires forall f :: f in fs ==> f.node in ns
    requires forall f :: f in list ==> f.node in Nodes(fs)
    ensures forall f :: f in list ==> f.node in ns
  {
    forall f | f in list
      ensures f.node in ns
    {
      var j :| 0 <= j < |fs| && Nodes(fs)[j] == f.node;
      assert fs[j] in fs;
    }
  }

  class ThreadingFrameController {
    var currentEvent: ControlEvent
    /** Whether the worker thread exists. */
    var started: bool
    /** The schedule: one frame per playing registration, in the order of
        registration. */
    var frames: seq<Frame>
    /** Every registration, playing or not. */
    var animationNodes: seq<ControlNode>
    /** The clock reading at which the worker began playing. */
    var startTime: int

    /** Every scheduled frame belongs to a registration, and its cursor is
        consistent and has key frames. */
    ghost predicate Valid()
      reads this, Animations(frames)
    {
      forall f :: f in frames ==> f.node in animationNodes && Playable(f.node.animation)
    }

    /** The state of every scheduled cursor. */
    ghost function Views(): (cs: map<FrameAnimation, Cursor>)
      reads this, Animations(frames)
      ensures cs.Keys == Animations(frames)
    {
      map a | a in Animations(frames) :: a.View()
    }

    /** The key-frame delays of every scheduled cursor's source. */
    ghost function Delays(): (ds: map<FrameAnimation, seq<int>>)
      reads this, Animations(frames), SourceKeyFrames(Animations(frames))
      ensures ds.Keys == Animations(frames)
    {
      map a | a in Animations(frames) :: SourceDelays(a)
    }

    /** The schedule is covered by the state and delays of its cursors. */
    lemma ValidCovers()
      requires Valid()
      ensures Covers(frames, Views(), Delays())
    {
      forall f | f in frames
        ensures f.node.animation in Animations(frames)
      {
      }
    }

    /** What the advance pass needs of a valid controller: its cursors are
        playable, in the states Views gives them, consistent with the delays
        Delays gives their sources, and those are their sources' delays. */
    lemma ValidPass()
      requires Valid()
      ensures Covers(frames, Views(), Delays()) && Coherent(Views(), Delays()) && Tracks(Views())
      ensures forall a :: a in Delays() ==> a.AnimationSource != null && a.AnimationSource.Delays() == Delays()[a]
    {
      ValidCovers();
      forall a | a in Animations(frames)
        ensures Playable(a)
      {
        var f :| f in frames && f.node.animation == a;
      }
    }

    /** A new controller: stopped, without worker, registrations or
        schedule. */
    constructor ()
      ensures Valid()
      ensures currentEvent == InitialState && !started
      ensures frames == [] && animationNodes == [] && startTime == MinValue
    {
      currentEvent := InitialState;
      started := false;
      frames := [];
      animationNodes := [];
      startTime := MinValue;
    }

    /** Milliseconds since the worker began playing. */
    function CurrentTime(now: int): int
      reads this
    {
      now - startTime
    }

    /** The worker's start, once its wait for a first frame is over: a
        stopped controller ends the worker; otherwise the clock starts. */
    method BeginRun(now: int) returns (running: bool)
      requires Valid()
      modifies this
      ensures Valid()
      ensures running <==> old(currentEvent) != ControlEvent.Stop
      ensures running ==> startTime == now && CurrentTime(now) == 0
      ensures !running ==> startTime == old(startTime)
      ensures currentEvent == old(currentEvent) && started == old(started)
      ensures frames == old(frames) && animationNodes == old(animationNodes)
    {
      if currentEvent == ControlEvent.Stop {
        return false;
      }
      startTime := now;
      running := true;
    }

    /** One cycle of the worker under the lock: the schedule, the cursors,
        the handler calls and the time to sleep are those Cycle gives for the
        schedule, cursor states and key-frame delays before the cycle. */
    method RunCycle() returns (dispatched: seq<Dispatch>, sleep: int, fault: Option<Fault>)
      requires Valid()
      modifies this, Animations(frames)
      ensures Valid()
      ensures currentEvent == old(currentEvent) && started == old(started)
      ensures animationNodes == old(animationNodes) && startTime == old(startTime)
      ensures var r := Cycle(old(frames), old(Views()), old(Delays()), AsWritten);
        && frames == r.frames && dispatched == r.dispatched && sleep == r.sleep && fault == r.fault
        && forall a :: a in r.cursors ==> a.View() == r.cursors[a]
    {
      ValidPass();
      ghost var fs := frames;
      ghost var cs0 := Views();
      ghost var ds := Delays();
      var marked;
      marked, dispatched := OnFramesChange(frames);
      SameNodesSameAnimations(marked, fs);
      var list;
      ghost var cs;
      list, fault, cs := AdvanceFrames(marked, cs0, ds);
      CycleOfPass(fs, cs0, ds, list, cs, fault);
      CycleKeepsRegistrations(fs, cs0, ds, AsWritten);
      sleep := 0;
      if fault.None? {
        var delay := FindMinDelay(list);
        if delay.Some? {
          sleep := delay.value;
          list := ReduceDelays(list, delay.value);
        }
      }
      Registered(list, fs, animationNodes);
      Reschedule(list, cs);
    }

    /** The schedule replaced by list, whose registrations are all known and
        whose cursors are all tracked by cs. */
    method Reschedule(list: seq<Frame>, ghost cs: map<FrameAnimation, Cursor>)
      requires Tracks(cs)
      requires forall f :: f in list ==> f.node in animationNodes && f.node.animation in cs
      modifies this
      ensures Valid() && Tracks(cs)
      ensures frames == list
      ensures currentEvent == old(currentEvent) && started == old(started)
      ensures animationNodes == old(animationNodes) && startTime == old(startTime)
    {
      frames := list;
    }

    /** The worker woken during its sleep by a new registration: the time it
        slept is taken off every scheduled delay, and nothing else changes. */
    method SleepInterrupted(slept: int)
      requires Valid()
      modifies this
      ensures Valid()
      ensures frames == Shift(old(frames), slept)
      ensures currentEvent == old(currentEvent) && started == old(started)
      ensures animationNodes == old(animationNodes) && startTime == old(startTime)
    {
      frames := ReduceDelays(frames, slept);
      Registered(frames, old(frames), animationNodes);
    }

    /** AddAnimation: a registration with the current controller time is
        appended; a cursor with key frames is also scheduled, due at once. */
    method AddAnimation(a: FrameAnimation, handler: FrameHandler, now: int)
      requires Valid() && a.Valid()
      modifies this
      ensures Valid()
      ensures animationNodes == old(animationNodes) + [ControlNode(a, handler, old(CurrentTime(now)))]
      ensures a.FrameCount() > 0 ==> frames == old(frames) + [Frame(ControlNode(a, handler, old(CurrentTime(now))), 0, false)]
      ensures a.FrameCount() == 0 ==> frames == old(frames)
      ensures currentEvent == old(currentEvent) && started == old(started) && startTime == old(startTime)
    {
      var node := ControlNode(a, handler, CurrentTime(now));
      animationNodes := animationNodes + [node];
      if a.FrameCount() == 0 {
        return;
      }
      frames := frames + [Frame(node, 0, false)];
    }

    /** RemoveAnimation: every registration of the cursor and every frame
        scheduling it go; the rest keep their order. */
    method RemoveAnimation(a: FrameAnimation)
      requires Valid()
      modifies this
      ensures Valid()
      ensures animationNodes == NodesWithout(old(animationNodes), a)
      ensures frames == FramesWithout(old(frames), a)
      ensures currentEvent == old(currentEvent) && started == old(started) && startTime == old(startTime)
    {
      animationNodes := NodesWithout(animationNodes, a);
      frames := Unschedule(frames, a);
      FramesWithoutRemovesExactly(old(frames), a);
      NodesWithoutRemovesExactly(old(animationNodes), a);
    }

    /** Start: a controller with a worker stays as it is; otherwise the
        worker is created and the controller waits paused for Play. */
    method Start()
      requires Valid()
      modifies this
      ensures Valid()
      ensures old(started) ==> currentEvent == old(currentEvent)
      ensures !old(started) ==> currentEvent == ControlEvent.Pause
      ensures started
      ensures frames == old(frames) && animationNodes == old(animationNodes) && startTime == old(startTime)
    {
      if started {
        return;
      }
      currentEvent := ControlEvent.Start;
      started := true;
      currentEvent := ControlEvent.Pause;
    }

    /** Play: raises NotStarted when stopped; from Pause or Start it plays. */
    method Play() returns (fault: Option<Fault>)
      requires Valid()
      modifies this
      ensures Valid()
      ensures old(currentEvent) == ControlEvent.Stop ==> fault == Some(NotStarted) && currentEvent == ControlEvent.Stop
      ensures old(currentEvent) != ControlEvent.Stop ==> fault.None? && currentEvent == ControlEvent.Play
      ensures started == old(started) && frames == old(frames)
      ensures animationNodes == old(animationNodes) && startTime == old(startTime)
    {
      if currentEvent == ControlEvent.Stop {
        return Some(NotStarted);
      }
      if currentEvent == ControlEvent.Pause || currentEvent == ControlEvent.Start {
        currentEvent := ControlEvent.Play;
      }
      fault := None;
    }

    /** Pause: raises NotStarted when stopped; from Play it pauses, and in
        Pause or Start nothing changes. */
    method Pause() returns (fault: Option<Fault>)
      requires Valid()
      modifies this
      ensures Valid()
      ensures old(currentEvent) == ControlEvent.Stop ==> fault == Some(NotStarted) && currentEvent == ControlEvent.Stop
      ensures old(currentEvent) == ControlEvent.Play ==> fault.None? && currentEvent == ControlEvent.Pause
      ensures old(currentEvent) == ControlEvent.Pause || old(currentEvent) == ControlEvent.Start ==>
        fault.None? && currentEvent == old(currentEvent)
      ensures started == old(started) && frames == old(frames)
      ensures animationNodes == old(animationNodes) && startTime == old(startTime)
    {
      if currentEvent == ControlEvent.Stop {
        return Some(NotStarted);
      }
      if currentEvent == ControlEvent.Play {
        currentEvent := ControlEvent.Pause;
      }
      fault := None;
    }

    /** Stop: without a worker nothing happens; otherwise the controller
        stops and the worker is gone. */
    method Stop()
      requires Valid()
      modifies this
      ensures Valid()
      ensures old(started) ==> currentEvent == ControlEvent.Stop
      ensures !old(started) ==> currentEvent == old(currentEvent)
      ensures !started
      ensures frames == old(frames) && animationNodes == old(animationNodes) && startTime == old(startTime)
    {
      if !started {
        return;
      }
      currentEvent := ControlEvent.Stop;
      started := false;
    }

    /** Clear: stops, then forgets every registration and the schedule. */
    method Clear()
      requires Valid()
      modifies this
      ensures Valid()
      ensures old(started) ==> currentEvent == ControlEvent.Stop
      ensures !old(started) ==> currentEvent == old(currentEvent)
      ensures !started && frames == [] && animationNodes == [] && startTime == old(startTime)
    {
      Stop();
      frames := [];
      animationNodes := [];
    }
  }
}

=== FILE: timing_control.dfy ===
/** The render-loop controller (Animation/TimingFrameController.cs).

    On every render tick, each registered cursor is moved to the key frame
    that a binary search over the absolute delays finds for the time elapsed
    since the cursor was registered; looping cursors take whole animation
    lengths off that time first. Clock readings are parameters (`now`, in milliseconds).

    Two parts of the source are modelled twice, as written and corrected (see
    the findings in README.md): the binary search UpperBound, whose shrinking
    step drops one candidate too many, and CurrentTime, whose Pause branch is
    unreachable. The tick and AddAnimation follow the source as written; the
    corrected versions stand beside them with the properties they were
    meant to have. */
module TimingControl {

  import opened Common
  import opened KeyFrames
  import opened FrameCursor
  import opened FrameControl

  predicate Sorted(d: seq<int>)
  {
    forall i, j :: 0 <= i <= j < |d| ==> d[i] <= d[j]
  }

  /** k is the key frame to show at time `duration` on the absolute timeline
      d: every key frame up to k has started and none after k has (k is -1
      when none has started yet). */
  predicate IsKeyFrameAt(d: seq<int>, duration: int, k: int)
  {
    -1 <= k < |d|
    && (forall j :: 0 <= j <= k ==> d[j] <= duration)
    && (forall j :: k < j < |d| ==> d[j] > duration)
  }

  /** On a sorted timeline at most one key frame is the one to show. */
  lemma KeyFrameAtUnique(d: seq<int>, duration: int, k1: int, k2: int)
    requires IsKeyFrameAt(d, duration, k1) && IsKeyFrameAt(d, duration, k2)
    ensures k1 == k2
  {
    assert 0 <= k1 ==> d[k1] <= duration;
    assert 0 <= k2 ==> d[k2] <= duration;
  }

  // ---------------------------------------------------------------------
  // The key-frame search as written: the `else` step sets last to it - 1.

  /** The loop of UpperBound as written, on the delays d. */
  function SearchAsWritten(d: seq<int>, first: int, last: int, duration: int): (r: int)
    requires 0 <= first <= |d| && last <= |d|
    ensures first <= r <= |d|
    ensures r == first || r <= last
    ensures r == first || d[r - 1] <= duration
    decreases last - first
  {
    if first < last then
      var it := (first + last) / 2;
      if duration >= d[it] then SearchAsWritten(d, it + 1, last, duration)
      else SearchAsWritten(d, first, it - 1, duration)
    else first
  }

  /** One turn of the loop as written. */
  lemma SearchAsWrittenStep(d: seq<int>, lo: int, hi: int, duration: int)
    requires 0 <= lo < hi <= |d|
    ensures var it := (lo + hi) / 2;
      lo <= it < hi
      && SearchAsWritten(d, lo, hi, duration) ==
         if duration >= d[it] then SearchAsWritten(d, it + 1, hi, duration)
         else SearchAsWritten(d, lo, it - 1, duration)
  {
  }

  /** UpperBound as written. Whatever it returns lies in [first, last] and
      every key frame before it has started; it does not always return the
      first key frame that has not started (see FindKeyFrameSkipsKeyFrames). */
  method UpperBound(delays: seq<int>, first: int, last: int, duration: int) returns (r: int)
    requires 0 <= first <= last <= |delays|
    ensures r == SearchAsWritten(delays, first, last, duration)
    ensures first <= r <= last
    ensures r == first || delays[r - 1] <= duration
  {
    var lo, hi := first, last;
    while lo < hi
      invariant first <= lo <= last && hi <= last
      invariant SearchAsWritten(delays, lo, hi, duration) == SearchAsWritten(delays, first, last, duration)
      decreases hi - lo
    {
      var it := (lo + hi) / 2;
      var time := delays[it];
      SearchAsWrittenStep(delays, lo, hi, duration);
      if duration >= time {
        lo := it + 1;
      } else {
        hi := it - 1;
      }
    }
    r := lo;
  }

  /** FindKeyFrame as written, on the absolute delays of a registration: an
      index in [-1, |timeline|) whose key frame, if any, has started. */
  method FindKeyFrame(timeline: seq<int>, duration: int) returns (k: int)
    ensures k == SearchAsWritten(timeline, 0, |timeline|, duration) - 1
    ensures -1 <= k < |timeline|
    ensures k >= 0 ==> timeline[k] <= duration
  {
    var r := UpperBound(timeline, 0, |timeline|, duration);
    k := r - 1;
  }

  /** On the timeline [0, 100, 250] the search as written answers -1 at 50 ms
      although key frame 0 started at 0 ms, so the first key frame is never
      shown by a tick (and a looping cursor skips it at 310 ms as well); on
      [0, 100, 250, 400] it answers 0 at 120 ms instead of 1. The corrected
      search gets all of these right. */
  lemma FindKeyFrameSkipsKeyFrames()
    ensures SearchAsWritten([0, 100, 250], 0, 3, 50) - 1 == -1
    ensures !IsKeyFrameAt([0, 100, 250], 50, -1)
    ensures SearchFixed([0, 100, 250], 0, 3, 50) - 1 == 0
    ensures SearchAsWritten([0, 100, 250, 400], 0, 4, 120) - 1 == 0
    ensures !IsKeyFrameAt([0, 100, 250, 400], 120, 0)
    ensures SearchFixed([0, 100, 250, 400], 0, 4, 120) - 1 == 1
  {
    var d := [0, 100, 250];
    assert d[0] <= 50;
    var e := [0, 100, 250, 400];
    assert e[1] <= 120;
  }

  // ---------------------------------------------------------------------
  // The corrected search: the `else` step sets last to it, so the midpoint
  // that has not started stays a candidate.

  function SearchFixed(d: seq<int>, first: int, last: int, duration: int): (r: int)
    requires 0 <= first <= last <= |d|
    ensures first <= r <= last
    ensures r == first || d[r - 1] <= duration
    ensures r == last || d[r] > duration
    decreases last - first
  {
    if first < last then
      var it := (first + last) / 2;
      if duration >= d[it] then SearchFixed(d, it + 1, last, duration)
      else SearchFixed(d, first, it, duration)
    else first
  }

  /** On a sorted timeline the corrected search splits [first, last) into the
      key frames that have started and those that have not. */
  lemma {:induction false} SearchFixedSplits(d: seq<int>, first: int, last: int, duration: int)
    requires 0 <= first <= last <= |d|
    requires Sorted(d)
    ensures forall j :: first <= j < SearchFixed(d, first, last, duration) ==> d[j] <= duration
    ensures forall j :: SearchFixed(d, first, last, duration) <= j < last ==> d[j] > duration
    decreases last - first
  {
    if first < last {
      var it := (first + last) / 2;
      if duration >= d[it] {
        SearchFixedSplits(d, it + 1, last, duration);
      } else {
        SearchFixedSplits(d, first, it, duration);
      }
    }
  }

  /** The corrected UpperBound: on a sorted timeline, the first index in
      [first, last) whose key frame has not started (last if all have). */
  method UpperBoundFixed(delays: seq<int>, first: int, last: int, duration: int) returns (r: int)
    requires 0 <= first <= last <= |delays|
    ensures r == SearchFixed(delays, first, last, duration)
    ensures Sorted(delays) ==>
      (forall j :: first <= j < r ==> delays[j] <= duration)
      && (forall j :: r <= j < last ==> delays[j] > duration)
  {
    var lo, hi := first, last;
    while lo < hi
      invariant first <= lo <= hi <= last
      invariant SearchFixed(delays, lo, hi, duration) == SearchFixed(delays, first, last, duration)
      decreases hi - lo
    {
      var it := (lo + hi) / 2;
      var time := delays[it];
      if duration >= time {
        lo := it + 1;
      } else {
        hi := it;
      }
    }
    r := lo;
    if Sorted(delays) {
      SearchFixedSplits(delays, first, last, duration);
    }
  }

  /** The corrected FindKeyFrame: on a sorted timeline, exactly the key frame
      to show at `duration`. */
  method FindKeyFrameFixed(timeline: seq<int>, duration: int) returns (k: int)
    ensures k == SearchFixed(timeline, 0, |timeline|, duration) - 1
    ensures Sorted(timeline) ==> IsKeyFrameAt(timeline, duration, k)
  {
    var r := UpperBoundFixed(timeline, 0, |timeline|, duration);
    k := r - 1;
  }

  /** Both directions: on a timeline built from non-negative relative delays,
      the corrected search answers k exactly when k is the key frame to show. */
  lemma {:induction false} SearchFixedFindsKeyFrame(d: seq<int>, duration: int, k: int)
    requires forall i :: 0 <= i < |d| ==> d[i] >= 0
    ensures IsKeyFrameAt(PrefixSums(d), duration, k) <==> k == SearchFixed(PrefixSums(d), 0, |d|, duration) - 1
  {
    PrefixSumsMonotone(d);
    var a := PrefixSums(d);
    SearchFixedSplits(a, 0, |d|, duration);
    var r := SearchFixed(a, 0, |d|, duration);
    assert IsKeyFrameAt(a, duration, r - 1);
    if IsKeyFrameAt(a, duration, k) {
      KeyFrameAtUnique(a, duration, k, r - 1);
    }
  }

  // ---------------------------------------------------------------------
  // One render tick, on one cursor.

  /** What is left of x after the source's `x - m * (int)(x / m)`: the
      conversion to int truncates toward zero, so whole periods m are taken
      off toward zero and the remainder keeps the sign of x (Dafny's % would
      not). */
  function TruncRem(x: int, m: int): (r: int)
    requires m > 0
    ensures -m < r < m
    ensures x >= 0 ==> r >= 0
    ensures x <= 0 ==> r <= 0
    ensures -m < x < m ==> r == x
    decreases if x >= 0 then x else -x
  {
    if -m < x < m then x
    else if x >= m then TruncRem(x - m, m)
    else TruncRem(x + m, m)
  }

  /** What the tick's `duration -= animationLength * (int)(duration /
      animationLength)` leaves of the elapsed time x for an animation length
      m. Whole lengths are taken off toward zero, so the result keeps the
      sign of x; a negative length takes off as much as its magnitude. With a
      length of 0 the quotient is infinite or not a number, the cast yields
      some integer, and multiplying it by 0 takes nothing off. */
  function TimeInAnimation(x: int, m: int): (r: int)
    ensures m == 0 ==> r == x
    ensures m > 0 ==> -m < r < m
    ensures m < 0 ==> m < r < -m
    ensures x >= 0 ==> r >= 0
    ensures x <= 0 ==> r <= 0
    ensures -m < x < m || m < x < -m ==> r == x
  {
    if m == 0 then x
    else if m > 0 then TruncRem(x, m)
    else TruncRem(x, -m)
  }

  /** The key frame the source's tick selects for a cursor registered with
      the absolute timeline d, `elapsed` ms after registration (-1: none): the
      search as written, at the time within the animation. A cursor that does
      not loop selects nothing once the animation is over; whatever is
      selected has started. */
  function TickIndex(d: seq<int>, elapsed: int, length: int, loop: bool): (k: int)
    ensures -1 <= k < |d|
    ensures !(elapsed < length || loop) ==> k == -1
    ensures k >= 0 ==> d[k] <= TimeInAnimation(elapsed, length)
  {
    if elapsed < length || loop then SearchAsWritten(d, 0, |d|, TimeInAnimation(elapsed, length)) - 1
    else -1
  }

  /** The key frame a tick with the corrected search would select. */
  function TickIndexFixed(d: seq<int>, elapsed: int, length: int, loop: bool): (k: int)
    ensures -1 <= k < |d|
    ensures !(elapsed < length || loop) ==> k == -1
    ensures k >= 0 ==> d[k] <= TimeInAnimation(elapsed, length)
    ensures (elapsed < length || loop) && k + 1 < |d| ==> d[k + 1] > TimeInAnimation(elapsed, length)
  {
    if elapsed < length || loop then SearchFixed(d, 0, |d|, TimeInAnimation(elapsed, length)) - 1
    else -1
  }

  /** Both directions: on the absolute timeline of non-negative relative
      delays, while the animation runs (or loops), the corrected tick selects
      k exactly when k is the key frame that started last. */
  lemma TickIndexFixedFindsKeyFrame(rel: seq<int>, elapsed: int, length: int, loop: bool, k: int)
    requires forall i :: 0 <= i < |rel| ==> rel[i] >= 0
    requires elapsed < length || loop
    ensures IsKeyFrameAt(PrefixSums(rel), TimeInAnimation(elapsed, length), k)
            <==> k == TickIndexFixed(PrefixSums(rel), elapsed, length, loop)
  {
    SearchFixedFindsKeyFrame(rel, TimeInAnimation(elapsed, length), k);
  }

  /** On a sorted timeline the source's tick never runs ahead of the
      corrected one: it selects the latest key frame or an earlier one (or
      none), see TickTimeline. */
  lemma TickLagsBehindFixed(d: seq<int>, elapsed: int, length: int, loop: bool)
    requires Sorted(d)
    ensures TickIndex(d, elapsed, length, loop) <= TickIndexFixed(d, elapsed, length, loop)
  {
    if elapsed < length || loop {
      SearchFixedSplits(d, 0, |d|, TimeInAnimation(elapsed, length));
    }
  }

  /** Whether a tick moves the cursor (and notifies its handler). */
  predicate Advances(c: Cursor, d: seq<int>, elapsed: int, length: int)
  {
    var k := TickIndex(d, elapsed, length, c.loop);
    k >= 0 && k != c.index
  }

  /** What a tick does to one cursor. */
  function TickCursor(c: Cursor, d: seq<int>, elapsed: int, length: int): Cursor
  {
    if Advances(c, d, elapsed, length) then SetIndex(c, TickIndex(d, elapsed, length, c.loop)).cursor
    else c
  }

  /** A tick that moves a cursor, whose registered timeline is sorted (as
      PrefixSumsMonotone makes it for non-negative delays) and has as many
      key frames as the cursor, moves it to a key frame that has started, no
      later than the one that started last (looping cursors measure time
      within the animation); that key frame becomes current and nothing is
      raised. */
  lemma TickShowsStartedKeyFrame(c: Cursor, d: seq<int>, elapsed: int, length: int)
    requires c.frameCount.Some? && |d| == FrameCount(c) && Sorted(d)
    requires Advances(c, d, elapsed, length)
    ensures var k := TickCursor(c, d, elapsed, length).index;
      0 <= k <= TickIndexFixed(d, elapsed, length, c.loop)
      && d[k] <= TimeInAnimation(elapsed, length)
      && TickCursor(c, d, elapsed, length).current == Some(k as nat)
      && SetIndex(c, k).fault.None?
  {
    TickLagsBehindFixed(d, elapsed, length, c.loop);
  }

  /** A tick changes a cursor exactly when it advances it: the handler is
      fed exactly when the cursor's state changed. */
  lemma MovesIffAdvances(c: Cursor, d: seq<int>, elapsed: int, length: int)
    requires c.frameCount.Some? && |d| == FrameCount(c)
    ensures TickCursor(c, d, elapsed, length) != c <==> Advances(c, d, elapsed, length)
  {
    if Advances(c, d, elapsed, length) {
      assert TickCursor(c, d, elapsed, length).index != c.index;
    }
  }

  /** The render-loop timeline [0, 100, 250] of length 300. At 150 and 260 ms
      the tick selects key frames 1 and 2. At 50 ms, and at 310 ms for a
      looping cursor, it selects nothing although key frame 0 has started,
      which the corrected tick selects. A cursor that does not loop selects
      nothing at 310 ms. An animation of length 0 that loops looks up the
      elapsed time itself. */
  lemma TickTimeline()
    ensures TickIndex([0, 100, 250], 50, 300, false) == -1
    ensures TickIndexFixed([0, 100, 250], 50, 300, false) == 0
    ensures TickIndex([0, 100, 250], 150, 300, false) == 1
    ensures TickIndex([0, 100, 250], 260, 300, false) == 2
    ensures TickIndex([0, 100, 250], 310, 300, true) == -1
    ensures TickIndexFixed([0, 100, 250], 310, 300, true) == 0
    ensures TickIndex([0, 100, 250], 310, 300, false) == -1
    ensures TickIndex([0, 0], 40, 0, true) == 1
  {
    var d := [0, 100, 250];
    assert SearchAsWritten(d, 0, 3, 260) == SearchAsWritten(d, 2, 3, 260) == SearchAsWritten(d, 3, 3, 260);
    assert TruncRem(310, 300) == 10;
  }

  /** A registration: the absolute delays of the deep copy made of the
      cursor's source (the only part of the copy the controller reads), the
      handler fed on every change, and the controller time of registration. */
  datatype AnimationControlNode = AnimationControlNode(
    timeline: seq<int>,
    handler: FrameHandler,
    startTime: int)

  /** The body of the tick loop for one registration: moves the cursor to the
      key frame selected `elapsed` ms after registration, and tells whether
      it moved (the handler is then fed the cursor's new frame). */
  method TickAnimation(a: FrameAnimation, node: AnimationControlNode, elapsed: int) returns (moved: bool)
    requires a.Valid() && a.AnimationSource != null
    requires |node.timeline| == a.FrameCount()
    modifies a
    ensures a.Valid()
    ensures a.View() == TickCursor(old(a.View()), node.timeline, elapsed, a.Duration())
    ensures moved == Advances(old(a.View()), node.timeline, elapsed, a.Duration())
    ensures moved <==> a.View() != old(a.View())
  {
    ghost var c := a.View();
    moved := false;
    var animationLength := a.Duration();
    if elapsed < animationLength || a.Loop {
      var duration := TimeInAnimation(elapsed, animationLength);
      var keyFrameIdx := FindKeyFrame(node.timeline, duration);
      if keyFrameIdx >= 0 && keyFrameIdx != a.currentFrameIndex {
        var fault := a.SetCurrentFrameIndex(keyFrameIdx);
        moved := true;
      }
    }
    MovesIffAdvances(c, node.timeline, elapsed, animationLength);
  }

  /** The state of the tick loop: the cursors still to visit are as they
      were (`before`), the visited ones have ticked, and `notified` holds the
      visited cursors that changed. */
  ghost predicate Ticking(nodes: map<FrameAnimation, AnimationControlNode>, before: map<FrameAnimation, Cursor>,
                          remaining: set<FrameAnimation>, notified: set<FrameAnimation>, t: int)
    reads nodes.Keys
  {
    remaining <= nodes.Keys && notified <= nodes.Keys
    && forall a {:trigger nodes[a]} :: a in nodes ==>
      a.Valid() && a.AnimationSource != null && |nodes[a].timeline| == a.FrameCount()
      && a in before
      && (a in remaining ==> a.View() == before[a] && a !in notified)
      && (a !in remaining ==>
            a.View() == TickCursor(before[a], nodes[a].timeline, t - nodes[a].startTime, a.Duration())
            && (a in notified <==> a.View() != before[a]))
  }

  /** One turn of the tick loop. */
  method Visit(nodes: map<FrameAnimation, AnimationControlNode>, ghost before: map<FrameAnimation, Cursor>,
               remaining: set<FrameAnimation>, notified: set<FrameAnimation>, a: FrameAnimation, t: int)
    returns (remaining': set<FrameAnimation>, notified': set<FrameAnimation>)
    requires Ticking(nodes, before, remaining, notified, t) && a in remaining
    modifies a
    ensures Ticking(nodes, before, remaining', notified', t)
    ensures remaining' == remaining - {a}
  {
    var moved := TickAnimation(a, nodes[a], t - nodes[a].startTime);
    notified' := if moved then notified + {a} else notified;
    remaining' := remaining - {a};
  }

  /** The loop of a tick in Play, over the registrations `nodes`: every
      cursor ticks once against controller time t, and the cursors whose
      state changed are returned. The order of the visits does not matter. */
  method TickAll(nodes: map<FrameAnimation, AnimationControlNode>, t: int) returns (notified: set<FrameAnimation>)
    requires forall a :: a in nodes ==>
      a.Valid() && a.AnimationSource != null && |nodes[a].timeline| == a.FrameCount()
    modifies nodes.Keys
    ensures forall a :: a in nodes ==> a.Valid()
    ensures notified <= nodes.Keys
    ensures forall a {:trigger nodes[a]} :: a in nodes ==>
      a.View() == TickCursor(old(a.View()), nodes[a].timeline, t - nodes[a].startTime, a.Duration())
      && (a in notified <==> a.View() != old(a.View()))
  {
    ghost var before := map a | a in nodes :: a.View();
    notified := {};
    var remaining := nodes.Keys;
    while remaining != {}
      invariant Ticking(nodes, before, remaining, notified, t)
      decreases remaining
    {
      var a :| a in remaining;
      remaining, notified := Visit(nodes, before, remaining, notified, a, t);
    }
  }

  /** The first two steps of AddAnimation: a deep copy of the source whose
      delays are made absolute. The source itself is left alone. */
  method AbsoluteCopy(source: KeyFramesAnimation) returns (c: KeyFramesAnimation)
    ensures fresh(c)
    ensures |c.KeyFrames| == |source.KeyFrames|
    ensures c.Delays() == PrefixSums(old(source.Delays()))
    ensures FramesIn(c.KeyFrames) == FramesIn(source.KeyFrames)
    ensures c.Duration == source.Duration
  {
    c := source.Clone();
    c.MakeAbsoluteTimingKeyFrame();
  }

  class TimingFrameController {
    var currentEvent: ControlEvent
    var animationNodes: map<FrameAnimation, AnimationControlNode>
    var startTime: int
    var stopTime: int
    var pausingTime: int
    var pausingDuration: int

    /** Every registered cursor is consistent, has a source, and its
        registered copy has as many key frames as that source. */
    ghost predicate Valid()
      reads this, animationNodes.Keys
    {
      forall a :: a in animationNodes ==>
        a.Valid() && a.AnimationSource != null && |animationNodes[a].timeline| == a.FrameCount()
    }

    constructor ()
      ensures Valid()
      ensures currentEvent == InitialState && animationNodes == map[]
      ensures startTime == MinValue && stopTime == MinValue && pausingTime == MinValue
      ensures pausingDuration == 0
    {
      currentEvent := InitialState;
      animationNodes := map[];
      startTime := MinValue;
      stopTime := MinValue;
      pausingTime := MinValue;
      pausingDuration := 0;
    }

    /** CurrentTime as written: its third test repeats Play, so a paused
        controller (and one in the Start state) reports 0. */
    function CurrentTime(now: int): (t: int)
      reads this
      ensures currentEvent == ControlEvent.Stop ==> t == stopTime - startTime - pausingDuration
      ensures currentEvent == ControlEvent.Play ==> t == now - startTime - pausingDuration
      ensures currentEvent == ControlEvent.Pause || currentEvent == ControlEvent.Start ==> t == 0
    {
      // The source's third branch, guarded by a second test for Play, can
      // never run and is left out.
      if currentEvent == ControlEvent.Stop then stopTime - startTime - pausingDuration
      else if currentEvent == ControlEvent.Play then now - startTime - pausingDuration
      else 0
    }

    /** The corrected CurrentTime: a paused controller reports the time at
        which it was paused. It agrees with CurrentTime except in Pause. */
    function CurrentTimeFixed(now: int): (t: int)
      reads this
      ensures currentEvent != ControlEvent.Pause ==> t == CurrentTime(now)
      ensures currentEvent == ControlEvent.Pause ==> t == pausingTime - startTime - pausingDuration
    {
      if currentEvent == ControlEvent.Stop then stopTime - startTime - pausingDuration
      else if currentEvent == ControlEvent.Play then now - startTime - pausingDuration
      else if currentEvent == ControlEvent.Pause then pausingTime - startTime - pausingDuration
      else 0
    }

    /** A paused controller whose clock has run reports 0 as written, and the
        time at which it was paused once corrected. */
    lemma PausedCurrentTimeIsZero(now: int)
      requires currentEvent == ControlEvent.Pause
      ensures CurrentTime(now) == 0
      ensures CurrentTimeFixed(now) == pausingTime - startTime - pausingDuration
    {
    }

    /** CompositionTarget_Rendering: in Play, every registered cursor moves to
        the key frame selected for the controller time minus its registration
        time, and the cursors whose state changed are returned (their
        handlers receive the cursor's new frame). In any other state nothing
        happens. */
    method Tick(now: int) returns (notified: set<FrameAnimation>)
      requires Valid()
      modifies animationNodes.Keys
      ensures Valid()
      ensures notified <= animationNodes.Keys
      ensures currentEvent != ControlEvent.Play ==>
        notified == {} && forall a :: a in animationNodes ==> a.View() == old(a.View())
      ensures currentEvent == ControlEvent.Play ==> forall a {:trigger animationNodes[a]} :: a in animationNodes ==>
        a.View() == TickCursor(old(a.View()), animationNodes[a].timeline,
                               CurrentTime(now) - animationNodes[a].startTime, a.Duration())
        && (a in notified <==> a.View() != old(a.View()))
    {
      notified := {};
      if currentEvent == ControlEvent.Pause {
        return;
      }
      var t := CurrentTime(now);
      if currentEvent == ControlEvent.Play {
        notified := TickAll(animationNodes, t);
        assert unchanged(this);
      }
    }

    /** AddAnimation: registers (or re-registers) the cursor with an
        absolute-timed deep copy of its source and the current controller
        time as written (0 while paused, see CurrentTime). A cursor without a source raises a null-reference
        error and registers nothing. The source's own key frames keep their
        relative delays. */
    method AddAnimation(a: FrameAnimation, handler: FrameHandler, now: int) returns (fault: Option<Fault>)
      requires Valid() && a.Valid()
      modifies this
      ensures Valid()
      ensures currentEvent == old(currentEvent) && startTime == old(startTime) && stopTime == old(stopTime)
      ensures pausingTime == old(pausingTime) && pausingDuration == old(pausingDuration)
      ensures a.AnimationSource == null ==> fault == Some(NullReference) && animationNodes == old(animationNodes)
      ensures a.AnimationSource != null ==>
        && fault.None?
        && a in animationNodes
        && animationNodes == old(animationNodes)[a := animationNodes[a]]
        && animationNodes[a].timeline == PrefixSums(old(a.AnimationSource.Delays()))
        && animationNodes[a].handler == handler
        && animationNodes[a].startTime == CurrentTime(now)
      ensures a.AnimationSource != null ==> a.AnimationSource.Delays() == old(a.AnimationSource.Delays())
    {
      if a.AnimationSource == null {
        return Some(NullReference);
      }
      var absoluteFrame := AbsoluteCopy(a.AnimationSource);
      var node := AnimationControlNode(absoluteFrame.Delays(), handler, CurrentTime(now));
      animationNodes := animationNodes[a := node];
      fault := None;
    }

    /** Clear: no cursor stays registered. */
    method Clear()
      requires Valid()
      modifies this
      ensures Valid()
      ensures animationNodes == map[]
      ensures currentEvent == old(currentEvent) && startTime == old(startTime) && stopTime == old(stopTime)
      ensures pausingTime == old(pausingTime) && pausingDuration == old(pausingDuration)
    {
      animationNodes := map[];
    }

    /** RemoveAnimation: the cursor is no longer registered (nothing happens
        if it was not); the other registrations are kept. */
    method RemoveAnimation(a: FrameAnimation)
      requires Valid()
      modifies this
      ensures Valid()
      ensures animationNodes == old(animationNodes) - {a}
      ensures currentEvent == old(currentEvent) && startTime == old(startTime) && stopTime == old(stopTime)
      ensures pausingTime == old(pausingTime) && pausingDuration == old(pausingDuration)
    {
      animationNodes := animationNodes - {a};
    }

    method DoPause(now: int)
      requires Valid()
      modifies this
      ensures Valid()
      ensures currentEvent == ControlEvent.Pause && pausingTime == now
      ensures animationNodes == old(animationNodes) && startTime == old(startTime)
      ensures stopTime == old(stopTime) && pausingDuration == old(pausingDuration)
    {
      currentEvent := ControlEvent.Pause;
      pausingTime := now;
    }

    /** Start: the clock restarts at `now` and the controller waits paused, at
        time 0, for Play. */
    method Start(now: int)
      requires Valid()
      modifies this
      ensures Valid()
      ensures currentEvent == ControlEvent.Pause && startTime == now && pausingTime == now
      ensures pausingDuration == 0 && stopTime == MinValue
      ensures animationNodes == old(animationNodes)
      ensures forall later :: CurrentTimeFixed(later) == 0
    {
      startTime := now;
      pausingDuration := 0;
      stopTime := MinValue;
      DoPause(now);
    }

    /** Play: raises NotStarted when stopped; from Pause (or Start) it resumes
        and adds the pause to the paused total, so the controller time goes on
        from where it stopped. */
    method Play(now: int) returns (fault: Option<Fault>)
      requires Valid()
      modifies this
      ensures Valid()
      ensures animationNodes == old(animationNodes) && startTime == old(startTime)
      ensures stopTime == old(stopTime) && pausingTime == old(pausingTime)
      ensures old(currentEvent) == ControlEvent.Stop ==> fault == Some(NotStarted) && currentEvent == ControlEvent.Stop && pausingDuration == old(pausingDuration)
      ensures old(currentEvent) == ControlEvent.Play ==> fault.None? && currentEvent == ControlEvent.Play && pausingDuration == old(pausingDuration)
      ensures old(currentEvent) == ControlEvent.Pause || old(currentEvent) == ControlEvent.Start ==>
        fault.None? && currentEvent == ControlEvent.Play && pausingDuration == old(pausingDuration) + (now - old(pausingTime))
      ensures old(currentEvent) == ControlEvent.Pause ==> CurrentTimeFixed(now) == old(CurrentTimeFixed(now))
    {
      if currentEvent == ControlEvent.Stop {
        return Some(NotStarted);
      }
      if currentEvent == ControlEvent.Pause || currentEvent == ControlEvent.Start {
        currentEvent := ControlEvent.Play;
        pausingDuration := pausingDuration + (now - pausingTime);
      }
      fault := None;
    }

    /** Pause: raises NotStarted when stopped; from Play it freezes the
        controller time at its current value. */
    method Pause(now: int) returns (fault: Option<Fault>)
      requires Valid()
      modifies this
      ensures Valid()
      ensures animationNodes == old(animationNodes) && startTime == old(startTime)
      ensures stopTime == old(stopTime) && pausingDuration == old(pausingDuration)
      ensures old(currentEvent) == ControlEvent.Stop ==> fault == Some(NotStarted) && currentEvent == ControlEvent.Stop && pausingTime == old(pausingTime)
      ensures old(currentEvent) == ControlEvent.Play ==> fault.None? && currentEvent == ControlEvent.Pause && pausingTime == now
      ensures old(currentEvent) == ControlEvent.Pause || old(currentEvent) == ControlEvent.Start ==>
        fault.None? && currentEvent == old(currentEvent) && pausingTime == old(pausingTime)
      ensures old(currentEvent) == ControlEvent.Play ==> forall later :: CurrentTimeFixed(later) == old(CurrentTimeFixed(now))
    {
      if currentEvent == ControlEvent.Stop {
        return Some(NotStarted);
      }
      if currentEvent == ControlEvent.Play {
        DoPause(now);
      }
      fault := None;
    }

    /** Stop: records the stop time; a playing controller's time freezes at
        its current value. */
    method Stop(now: int)
      requires Valid()
      modifies this
      ensures Valid()
      ensures currentEvent == ControlEvent.Stop && stopTime == now
      ensures animationNodes == old(animationNodes) && startTime == old(startTime)
      ensures pausingTime == old(pausingTime) && pausingDuration == old(pausingDuration)
      ensures old(currentEvent) == ControlEvent.Play ==> forall later :: CurrentTimeFixed(later) == old(CurrentTimeFixed(now))
    {
      stopTime := now;
      currentEvent := ControlEvent.Stop;
    }
  }

  /** Start at 0 ms, Play at 0 ms, Pause at 1000 ms, then a registration at
      1500 ms: the registration time is 0 (CurrentTime in Pause), where the
      corrected controller time is 1000, the time at which playback was
      paused. */
  method PauseThenRegister(a: FrameAnimation, handler: FrameHandler) returns (reported: int, corrected: int, registered: int)
    requires a.Valid() && a.AnimationSource != null
    ensures reported == 0 && corrected == 1000 && registered == 0
  {
    var c := new TimingFrameController();
    c.Start(0);
    var fault := c.Play(0);
    fault := c.Pause(1000);
    reported := c.CurrentTime(1500);
    corrected := c.CurrentTimeFixed(1500);
    fault := c.AddAnimation(a, handler, 1500);
    registered := c.animationNodes[a].startTime;
  }
}
